=== FILE: README.md ===
# Periskope chat client — a Dafny model of its core

This project models the core of a WhatsApp-style team chat client. The client keeps its state in a hosted Postgres database: users, chats, chat participants, messages and chat tags. It subscribes to that database's realtime change feed. The model covers four parts of it:

- **The chat service:**
  - the chat-list query (`getChats`): membership, the last-message summary, the unread count, and the fallback values;
  - `markMessagesAsRead`;
  - `createChat`, with its compensating delete;
  - `addChatTag`;
  - the record `sendMessage` inserts and what it returns;
  - the two mappers `mapUser` and `mapChat`;
  - the two realtime payload filters.
- **The "Create New Chat" dialog:**
  - the user list and its search filter;
  - selecting users (including the automatic group name);
  - adding and removing tags, and tag colours;
  - the request built by Create, the form reset, and the rule that disables the Create button.
- **The message list:**
  - grouping by date label;
  - the sender-header rule;
  - own-message detection and the read ticks;
  - the empty placeholder.
- **The sign-up form:** its ordered validation chain.

The database is a value (`Schema.Db`, one sequence of rows per table), and every service call is a pure function from the store to a result and a new store. Whatever the client cannot decide is a parameter:

- the signed-in user (`auth: Option<Id>`);
- the fresh uuids and the current instant;
- whether each database request is accepted: every write, and every read whose failure the code handles (the `getChats` queries, the sender and chat reads of `sendMessage`, the chat read-back of `createChat`, and the dialog's user list).

An insert whose primary key is already taken is rejected, as the database would reject it: a chat id or message id the client generates, a tag id in the batch `createChat` writes (a batch with a repeated id fails too), and the tag id the database assigns in `addChatTag`. Participant rows carry no key in the model, so their insert is never rejected for a key. Timestamps are integer instants; display formatting of times is not modelled. Untyped realtime payloads are maps from column names to JavaScript values, so that the strict comparisons of the filters can be stated exactly.

Where the project's design description and its code disagree, the model follows the code:

- **Unread rule.** A message counts as unread when its status is exactly `"sent"`, not whenever it is "not read".
- **`markMessagesAsRead` always writes.** It issues its update even when nothing would change.
- **`mapChat` drops the avatar.** It writes the avatar under `avatar_url`, which `ChatData` does not declare, so the mapped chat has no `avatar`.
- **Status callback fires on every update.** With the database's default replica identity, the old row image of an update carries only the primary key. So the status callback fires on every update of the chat's messages, changed status or not (`Realtime.StatusFiresOnAnyUpdateWithKeyOnlyImage`).
- **Missing timeline logic.** The code has no timeline merge, message de-duplication or monotonic status; see "Left out".

The modules:

| file | module | what it holds |
|---|---|---|
| `common.dfy` | `Common` | Option; JS `\|\|`; `includes`; ASCII `toLowerCase`; `join`; no-duplicates; subsequence; `filter` by inequality |
| `schema.dfy` | `Schema` | table rows, the store, the unread rule and count, look-up by id |
| `mappers.dfy` | `Mappers` | `User`, `ChatData`, `mapUser`, `mapChat` |
| `chat_directory.dfy` | `ChatDirectory` | `getChats` |
| `read_tracker.dfy` | `ReadTracker` | `markMessagesAsRead` |
| `composer.dfy` | `Composer` | `createChat`, `addChatTag`, `sendMessage` |
| `realtime.dfy` | `Realtime` | payloads and the two realtime filters |
| `new_chat_modal.dfy` | `NewChatModal` | the "Create New Chat" dialog |
| `create_flow.dfy` | `CreateFlow` | the dialog's Create press through `createChat` |
| `message_list.dfy` | `MessageList` | grouping by date, header and tick rules, rendering |
| `signup.dfy` | `Signup` | the sign-up validation chain |

## Model

| member | source | states |
|---|---|---|
| Common.Truthy | src/service/chatService.tsx:17-18 | `x \|\| undefined`: the result is present exactly when the input is a non-empty string, and then equals it |
| Common.OrElse | src/service/chatService.tsx:153 | `s \|\| fallback`: a non-empty string is kept, the empty string gives the fallback |
| Common.Lower | src/components/modal/newChatModal.tsx:71-72 | `toLowerCase` letter by letter: same length, ASCII capitals lowered, every other character kept |
| Common.Join | src/components/modal/newChatModal.tsx:133 | `join` of nothing is empty, and the joined string starts with the first string |
| Common.JoinAppend | src/components/modal/newChatModal.tsx:133 | joining one more string adds one separator and that string at the end |
| Common.RemoveAll | src/components/modal/newChatModal.tsx:113-115 | filtering out one value keeps every other element with its multiplicity and order, removes every copy of the value, changes nothing when it is absent |
| Common.RemoveAllKeepsNoDuplicates | src/components/modal/newChatModal.tsx:113-115 | removing a tag from a duplicate-free tag list leaves it duplicate-free |
| Schema.UnreadCountIsCardinality | src/service/chatService.tsx:134-139 | the unread count equals the number of rows of the chat with status "sent" written by someone else |
| Schema.UnreadCount | src/service/chatService.tsx:134-139 | the count is at most the number of rows, and zero exactly when no row is another user's "sent" message of the chat |
| Schema.OwnMessagesNeverUnread | src/service/chatService.tsx:134-139 | when every message of a chat is the user's own, the user's unread count for it is 0 |
| Schema.UnreadCountAppend | src/service/chatService.tsx:134-139 | appending a row raises the count by one exactly when the row is unread for that user |
| Schema.FindUser | src/service/chatService.tsx:152 | the result is the first row with the id, and is absent exactly when no row has it |
| Schema.FindChat | src/service/chatService.tsx:255-267 | a chat row with the id when one exists, absent exactly when none does |
| Mappers.MapUser | src/service/chatService.tsx:13-19 | id, name and email are copied; avatar and phone are present exactly when stored non-empty |
| Mappers.MapUsers | src/service/chatService.tsx:37 | every participant is mapped, in order |
| Mappers.TagsOf | src/service/chatService.tsx:38-41 | every tag row becomes its (type, label) pair, in order |
| Mappers.MapChat | src/service/chatService.tsx:22-42 | id and name copied, status "sent" and type "text"; the phone is the first participant's non-empty phone; participants and tags mapped in order; no avatar |
| Mappers.MapChatDefaults | src/service/chatService.tsx:24-26 | the default arguments: "No messages yet", the current instant, nothing unread |
| ChatDirectory.MemberChatIds | src/service/chatService.tsx:83-93 | an id is listed exactly when the user has a participant row in that chat |
| ChatDirectory.ChatsWithIds | src/service/chatService.tsx:96-108 | exactly the chat rows whose id is listed, in table order; none for an empty list |
| ChatDirectory.ParticipantUsers | src/service/chatService.tsx:119-121 | only user rows of the chat's participants, and every participant whose user row exists |
| ChatDirectory.TagRowsOf | src/service/chatService.tsx:142-145 | exactly the chat's tag rows, in table order |
| ChatDirectory.LatestMessage | src/service/chatService.tsx:124-131 | absent exactly when the chat has no message; otherwise a message of the chat with the greatest creation instant |
| ChatDirectory.SenderName | src/service/chatService.tsx:151-155 | the first participant with the sender's id gives its full name; "Unknown" when there is none or the name is empty; never empty |
| ChatDirectory.ListedUser | src/service/chatService.tsx:168-174 | a listed participant keeps id, full name and email, takes the avatar under `\|\| undefined`, and shows their own phone when it is non-empty, else the placeholder number |
| ChatDirectory.ChatPhone | src/service/chatService.tsx:167 | the chat's phone is never empty: the first participant's phone when it is non-empty, the placeholder number otherwise |
| ChatDirectory.ListedUsers | src/service/chatService.tsx:168-174 | one listed user per participant, in participant order, each mapped with the placeholder-phone rule |
| ChatDirectory.LastMessageLine | src/service/chatService.tsx:147-165 | with no last message, "No messages yet" with the chat's creation instant, status "sent" and type "text"; otherwise "sender: text" with the message's instant and status, its attachment type when non-empty, else "text" |
| ChatDirectory.Summarize | src/service/chatService.tsx:115-181 | the entry's id, name and truthy avatar; the unread count, 0 when its query failed; the chat phone and listed participants of the joined users; the chat's tags as (type, label) pairs, none when their query failed |
| ChatDirectory.SummarizeLastMessage | src/service/chatService.tsx:124-165 | the "No messages yet" defaults when the chat has no messages or the query failed; otherwise a latest message of the chat as "sender: text" with its instant, its status, and its non-empty attachment type, else "text" |
| ChatDirectory.SummarizeAll | src/service/chatService.tsx:116-183 | one entry per chat, in order |
| ChatDirectory.MemberChats | src/service/chatService.tsx:83-108 | exactly the chats the user has a participant row in, in table order |
| ChatDirectory.GetChats | src/service/chatService.tsx:76-190 | empty without a user or after a failed up-front query; otherwise one summary per member chat |
| ChatDirectory.GetChatsListsExactlyMemberChats | src/service/chatService.tsx:76-185 | every listed chat is one the user belongs to, and every chat the user belongs to is listed |
| ChatDirectory.EmptyChatSummary | src/service/chatService.tsx:148-166 | a chat with no messages shows "No messages yet" and nothing unread |
| ReadTracker.MarkAll | src/service/chatService.tsx:283-288 | a row is set to "read" exactly when the update's filter selects it; others are untouched |
| ReadTracker.Marks | src/service/chatService.tsx:283-288 | the update's filter: the chat's messages from someone other than the reader whose status is not "read" |
| ReadTracker.MarkMessagesAsRead | src/service/chatService.tsx:279-293 | nothing changes without a user or on a rejected write; otherwise only the status column changes, exactly on the filtered rows, and every message of the chat from someone else ends "read" |
| ReadTracker.MarkIdempotent | src/service/chatService.tsx:283-288 | marking twice equals marking once |
| ReadTracker.MarkClearsUnread | src/service/chatService.tsx:279-293 | after the reader marks a chat, their unread count for it is 0 |
| ReadTracker.MarkKeepsOtherChats | src/service/chatService.tsx:286 | every other chat's unread count, for every user, is unchanged |
| ReadTracker.MarkKeepsReadersOwnMessages | src/service/chatService.tsx:287 | the reader's own messages keep their status |
| Composer.Dedup | src/service/chatService.tsx:322 | `[...new Set(xs)]`: no duplicates, the same members, never longer |
| Composer.DedupKeepsFirstOccurrenceOrder | src/service/chatService.tsx:322 | `[...new Set(xs)]` lists the ids in the order of their first occurrence in `xs`, which with the members and the absence of duplicates fixes the result |
| Composer.ParticipantRecords | src/service/chatService.tsx:323-327 | one row per member, in order; the creator is the admin and everyone else a member |
| Composer.NewParticipants | src/service/chatService.tsx:321-327 | the requested users and the creator, each exactly once; the creator alone is admin |
| Composer.TagRecords | src/service/chatService.tsx:342-348 | one row per requested tag, with its fresh id, the chat id, type, label and instant |
| Composer.DeleteChatFacts | src/service/chatService.tsx:336 | exactly the rows with another id remain |
| Composer.DeleteAppended | src/service/chatService.tsx:333-338 | the clean-up after a failed participant insert restores the chats table |
| Composer.CreateChat | src/service/chatService.tsx:295-396 | nothing is written on early failure or a taken chat id; a failed participant insert ends with no chat row when the delete succeeds; otherwise the chat row, the participants and, when the tag insert succeeds with free distinct ids, the tags are appended, and the returned chat exists exactly when the fetch succeeds and is `mapChat` of the new row with its joined participants (the first one's phone) and tags, no last message and nothing unread; a failed participant insert whose delete also fails leaves exactly the new chat row behind |
| Composer.AddChatTag | src/service/chatService.tsx:399-418 | the answer is true exactly when the insert is accepted and the tag id is free; a success appends the chat's new tag row and changes nothing else |
| Composer.NewMessage | src/service/chatService.tsx:235-246 | the inserted record carries the id, chat, sender, text, instant and status "sent"; the forwarded-from, attachment url and attachment type values are copied when non-empty and null otherwise |
| Composer.SenderDisplayName | src/service/chatService.tsx:226-232 | the sender's non-empty full name from a successful read, otherwise "Unknown" |
| Composer.SendMessageAsWritten | src/service/chatService.tsx:248-275 | the message is stored, yet the call is rejected whenever the chat read finds the chat; a failed chat read or a missing chat returns the message without a chat |
| Composer.SendToExistingChatRejectedAsWritten | src/service/chatService.tsx:255-275 | a send to an existing chat is stored yet rejected as written, and returned with its chat once corrected |
| Composer.SendMessage | src/service/chatService.tsx:216-276 | null without a user or on a rejected insert or taken id; otherwise exactly the new message is appended and returned with the sender's name, with its chat exactly when the chat read finds it, that chat being `mapChat` of the found row with its joined participants (the first one's phone) and tags, and the call is never rejected |
| Composer.SendRaisesUnreadForRecipients | src/service/chatService.tsx:236-248 | a sent message raises every other user's unread count for the chat by one and not the sender's |
| Realtime.MessageRecord | src/service/chatService.tsx:236-246 | a stored message published on the feed carries its id, chat, sender and status |
| Realtime.TagRecord | src/service/chatService.tsx:342-348 | a published tag row carries its chat id |
| Realtime.NewMessageFilterAsWritten | src/service/chatService.tsx:426-430 | fires exactly for an insert whose new row's `chat_id` equals the chat's id, whatever the table |
| Realtime.NewMessageFilter | src/service/chatService.tsx:426-430 | the same test restricted to the messages table |
| Realtime.StatusFilter | src/service/chatService.tsx:453-459 | fires exactly for an update of a row of the chat whose status differs between the images, passing the row's id and new status |
| Realtime.NewMessageFiresForItsChat | src/service/chatService.tsx:425-430 | a message insert reaches the callback exactly when the message belongs to the chat |
| Realtime.StatusFiresOnStatusChange | src/service/chatService.tsx:452-459 | with full row images, the callback fires exactly for a status change of a message of the chat |
| Realtime.StatusFiresOnAnyUpdateWithKeyOnlyImage | src/service/chatService.tsx:457 | with key-only old images, every update of a message of the chat fires |
| Realtime.FiltersSeparateEvents | src/service/chatService.tsx:427 | inserts never reach the status callback, and other events never reach the new-message callback |
| Realtime.TagInsertReachesNewMessageCallback | src/lib/supabase.ts:15-19 | a tag insert reaches the new-message callback as written, and not once restricted |
| NewChatModal.OtherUsers | src/components/modal/newChatModal.tsx:53-58 | exactly the user rows other than the signed-in user's, in order |
| NewChatModal.UsersMatching | src/components/modal/newChatModal.tsx:70-73 | exactly the users whose name, or non-empty email, contains the query case-insensitively, in order |
| NewChatModal.MatchesQuery | src/components/modal/newChatModal.tsx:70-73 | the lower-cased name contains the lower-cased query, or the email is non-empty and contains it |
| NewChatModal.FilterUsers | src/components/modal/newChatModal.tsx:67-78 | an empty query shows every user; otherwise the matching users, in order |
| NewChatModal.LoadUsers | src/components/modal/newChatModal.tsx:47-65 | after a successful read the list becomes the other users and the filter is applied to it; a failed read changes nothing; nothing else changes |
| NewChatModal.SetSearchQuery | src/components/modal/newChatModal.tsx:67-78 | the query is set and the filtered list recomputed; nothing else changes |
| NewChatModal.WithoutId | src/components/modal/newChatModal.tsx:82 | exactly the selected users with another id, in order |
| NewChatModal.WithoutIdCounts | src/components/modal/newChatModal.tsx:82 | the filter keeps every user with another id as often as it was selected, and no user with the id |
| NewChatModal.WithoutIdKeepsDistinctIds | src/components/modal/newChatModal.tsx:82 | deselecting a user keeps the selected ids distinct |
| NewChatModal.ToggleUserSelection | src/components/modal/newChatModal.tsx:80-92 | a user is selected afterwards exactly when they were not before; removal keeps the order; picking a second user outside group mode makes a group named after both |
| NewChatModal.SetIsGroup | src/components/modal/newChatModal.tsx:253-262 | only the group flag changes; leaving group mode with a selection enables Create when no create is running, and entering it without a name disables Create |
| NewChatModal.SetChatName | src/components/modal/newChatModal.tsx:276 | only the name changes; a non-empty name with a selection enables Create when no create is running, and an empty name in group mode disables it |
| NewChatModal.WithoutAbsentId | src/components/modal/newChatModal.tsx:82 | removing an id nobody has changes nothing |
| NewChatModal.WithoutAppendedId | src/components/modal/newChatModal.tsx:82-84 | removing a just-appended user restores the selection |
| NewChatModal.ToggleTwiceRestoresSelection | src/components/modal/newChatModal.tsx:80-92 | picking and then unpicking a user restores the selection |
| NewChatModal.FindPredefined | src/components/modal/newChatModal.tsx:25-30 | a predefined tag of the type when there is one; absent exactly when no predefined tag has that type |
| NewChatModal.TagLabelFor | src/components/modal/newChatModal.tsx:97-98 | the custom label if typed, else the predefined label, else the type |
| NewChatModal.AddTag | src/components/modal/newChatModal.tsx:95-109 | the tag is in the selection afterwards, appended only if no equal tag was there; duplicate-freedom is kept; the form resets |
| NewChatModal.RemoveTag | src/components/modal/newChatModal.tsx:112-116 | every equal tag goes, the others stay with their multiplicity and order, and duplicate-freedom is kept |
| NewChatModal.TagClasses | src/components/modal/newChatModal.tsx:171-177 | the predefined colours of a known type, grey otherwise |
| NewChatModal.FullNames | src/components/modal/newChatModal.tsx:133 | the selected users' names, in order |
| NewChatModal.BuildCreateRequest | src/components/modal/newChatModal.tsx:118-136 | nothing without a selection; the sole user's name, the typed group name, or the names joined by ", "; the selected ids in order; the flag and tags as set |
| NewChatModal.StartCreate | src/components/modal/newChatModal.tsx:119-121 | no request and no change without a selection; otherwise the request and the create in progress |
| NewChatModal.ResetForm | src/components/modal/newChatModal.tsx:159-168 | the selection, query, name, group flag and tag form are back to their initial values and every user is shown |
| NewChatModal.FinishCreate | src/components/modal/newChatModal.tsx:147-156 | the create is no longer in progress; after a created chat the dialog is in its initial state apart from the loaded users, all shown; otherwise nothing else changes |
| NewChatModal.EnabledCreateYieldsNamedRequest | src/components/modal/newChatModal.tsx:403 | an enabled Create button yields a request, a group request for several users has a name, and pressing it disables the button |
| NewChatModal.CreateDisabled | src/components/modal/newChatModal.tsx:403 | Create is disabled with no selection, while a create runs, or in group mode without a name |
| CreateFlow.CreateFromDialog | src/components/modal/newChatModal.tsx:140-145 | with every write accepted and a free id, the service returns the created chat |
| CreateFlow.RequestIdsAreSelection | src/components/modal/newChatModal.tsx:136 | the ids sent are exactly the selected users' ids |
| CreateFlow.DialogCreateAddsSelectedMembers | src/service/chatService.tsx:321-331 | the new participant rows are exactly the selected users and the creator, the creator alone admin, and earlier rows are kept |
| CreateFlow.DialogCreateStoresSelectedTags | src/service/chatService.tsx:341-352 | with fresh tag ids, one new tag row per selected tag, in selection order, and earlier rows are kept |
| MessageList.DateKeysFacts | src/components/chat/message-list.tsx:29-39 | the distinct date labels, each once, exactly those of the messages |
| MessageList.OnDateFacts | src/components/chat/message-list.tsx:29-35 | exactly the messages of one date, in input order |
| MessageList.OnDateAppend | src/components/chat/message-list.tsx:34 | a new message joins the end of its own date's list only |
| MessageList.Accumulate | src/components/chat/message-list.tsx:29-35 | after the loop the object's keys are the distinct dates in order of first appearance, and each bucket holds exactly its date's messages in input order |
| MessageList.Push | src/components/chat/message-list.tsx:31-34 | a missing date gets a new bucket and a new key at the end; the message is pushed onto its date's bucket and every other bucket and key stays |
| MessageList.GroupByDate | src/components/chat/message-list.tsx:28-39 | the rendered groups are the reference grouping: one per date label, in order of first appearance, with that date's messages |
| MessageList.EveryMessageInExactlyOneGroup | src/components/chat/message-list.tsx:29-35 | every message is in the group of its date and in no other group, and no two groups share a date |
| MessageList.GroupsKeepInputOrder | src/components/chat/message-list.tsx:34 | each group keeps its messages in input order |
| MessageList.GroupsInFirstAppearanceOrder | src/components/chat/message-list.tsx:39 | an earlier group's date occurs before any message of a later group |
| MessageList.GroupSizesSum | src/components/chat/message-list.tsx:29-35 | the group sizes add up to the number of messages |
| MessageList.ContiguousFlattenIsIdentity | src/components/chat/message-list.tsx:28-52 | when messages of one date are adjacent, the groups laid end to end give back the input |
| MessageList.ShowSender | src/components/chat/message-list.tsx:50 | the header shows at a group's first message and wherever the sender changes |
| MessageList.HeadersStartSenderRuns | src/components/chat/message-list.tsx:50 | between two headers every message has the same sender |
| MessageList.TickFor | src/components/chat/message-list.tsx:85-90 | a double tick exactly for own read messages, a single tick for other own messages, none for others |
| MessageList.ItemsOf | src/components/chat/message-list.tsx:45-51 | each message gets its own flag, header flag (shown only for others' messages) and tick |
| MessageList.Render | src/components/chat/message-list.tsx:19-54 | the placeholder exactly for a missing or empty list; otherwise one non-empty list of day sections, one per date label in order, each with that date's messages |
| MessageList.TwoRunsTwoDays | src/components/chat/message-list.tsx:28-39 | two runs of distinct dates give exactly those two days, holding those runs |
| MessageList.DemoConversationRendersTwoDays | src/data/mockData.ts:149-227 | the demo conversation shows two days of three and five messages, with headers and ticks as listed |
| Signup.Utf16Length | src/app/signup/page.tsx:31 | a string's JavaScript length lies between its character count and twice that, and equals it without astral characters |
| Signup.Utf16LengthAppend | src/app/signup/page.tsx:31 | the JavaScript length of a concatenation is the sum of the lengths |
| Signup.Utf16LengthOfChar | src/app/signup/page.tsx:31 | one character has length two outside the Basic Multilingual Plane and one inside it; with the sum rule this fixes every string's length |
| Signup.ThreeEmojiAreSixCodeUnits | src/app/signup/page.tsx:31 | three astral emoji have length 6, the minimum the password check accepts |
| Signup.TrimStart | src/app/signup/page.tsx:37 | a suffix of the input, whose dropped prefix is white space and which does not start with white space |
| Signup.TrimEnd | src/app/signup/page.tsx:37 | a prefix of the input, whose dropped suffix is white space and which does not end with white space |
| Signup.Trim | src/app/signup/page.tsx:37 | the result is a slice of the input whose dropped prefix and suffix are white space, and it neither starts nor ends with white space |
| Signup.TrimEmptyIffAllWhitespace | src/app/signup/page.tsx:37 | a name trims to nothing exactly when it is all white space |
| Signup.IsJsWhitespace | src/app/signup/page.tsx:37 | the characters `trim` removes: tab to carriage return, space, no-break space, ogham space mark, the U+2000 to U+200A spaces, line and paragraph separators, narrow no-break space, medium mathematical space, ideographic space and the byte order mark |
| Signup.HandleSubmit | src/app/signup/page.tsx:24-51 | the first failing check's message is reported, in the order passwords, length, name, phone; sign-up is called exactly when all four pass, with the form's values |
| Signup.IsTenDigitPhone | src/app/signup/page.tsx:44 | the pattern `^\d{10}$`: exactly ten ASCII digits and nothing else |
| Signup.FirstFailureWins | src/app/signup/page.tsx:24-48 | once an earlier check fails, the fields checked later cannot change the reported error |
| Signup.FinishSignUp | src/app/signup/page.tsx:50-65 | an error object with a message shows exactly that message; any other answer is success; an exception shows its non-empty message, else "Something went wrong" |

## Left out

- `getMessages` and `mapMessage` are not modelled. They are a read with a display-time format; the message list takes their output as its input.
- `formatTime` and the `date-fns` formatting are not modelled. Times are integer instants.
- `subscribeToChats`, the channel set-up and tear-down, presence, and the authentication pages other than sign-up's validation are plumbing; they are left out.
- Concurrency is left out. The per-chat queries of `getChats` run concurrently, but they are independent reads, so they are one sequential map.
- `console` logging is left out, and so are the `try`/`catch` blocks around calls that cannot throw in the model.
- ChatDirectory.Summarize: does not state the extra `id` and `created_at` fields `getChats` copies into each tag, because `Tag` holds only type and label.
- ChatDirectory.Summarize: the order of rows with equal creation instants in the latest-message query is left to the database; the model takes the earliest such row.
- ChatDirectory.MemberChats: the chat query filters by id with no `order`, so the database may return the chats in any order; the model lists them in table order.
- ChatDirectory.ParticipantUsers: the embedded participant list has no order either; the model takes participant-table order, which decides `participants[0]` and so the chat's phone, here and in `mapChat`.
- Common.Lower: `toLowerCase` is modelled on ASCII letters only, because there is no Unicode case table.
- Mappers.MapChat: the avatar is always absent, because the code writes it under a key `ChatData` does not declare.
- NewChatModal: the dialog's open/close, `onChatCreated` and `onClose` callbacks are left out.
- NewChatModal: the search effect is applied inside the transitions that trigger it, not as a separate render pass.
- Signup: the post-success redirect timer and the `loading` flag are left out.
- Timeline features are left out: the merge of a realtime message into the open chat's list, de-duplication by message id, and a status that only moves forward. The code implements none of them.
- MessageList: the object keys are assumed never integer-like, as date labels are. JavaScript lists integer-like keys first, in numeric order.
- MessageList: keys that name `Object.prototype` members are also assumed never to occur; for those the existence test would misfire.

## Findings

| source | as written | input that shows it | evidently intended | confidence | as-written member | corrected member |
|---|---|---|---|---|---|---|
| src/lib/supabase.ts:15-19 with src/service/chatService.tsx:425-430 | the channel listens to every change in the public schema, and the new-message filter never checks the table | an insert into `chat_tags` for the open chat (any tag row) | only inserts into `messages` reach the new-message callback | not executed | Realtime.NewMessageFilterAsWritten | Realtime.NewMessageFilter |
| src/service/chatService.tsx:255-275 | `mapChat` is given the fetched chat row, whose participants come back under `chat_participants`, so reading `participants[0]` throws after the message was stored | any send to an existing chat with an accepted insert and chat read | the stored message is returned with its chat mapped from the joined participants | not executed | Composer.SendMessageAsWritten, Composer.SendToExistingChatRejectedAsWritten | Composer.SendMessage |

=== FILE: chat_directory.dfy ===
/** The chat list query (`getChats`): for every chat the signed-in user
    takes part in, the chat row with its participants, its tags, a summary
    of its latest message and its unread count. The per-chat queries run
    concurrently in the client; they are independent, so they are modelled
    as one sequential map over the chats. */
module ChatDirectory {
  import opened Common
  import opened Schema
  import opened Mappers

  /** Which queries came back without data. The two up-front queries abort
      the whole listing; a failed per-chat query only loses that piece. */
  datatype QueryFaults = QueryFaults(
    participantQueryFailed: bool,
    chatQueryFailed: bool,
    lastMessageMissing: set<Id>,
    unreadCountMissing: set<Id>,
    tagsMissing: set<Id>)

  const Unknown := "Unknown"
  const DefaultChatPhone := "76437364763"
  const DefaultUserPhone := "88764868683"

  predicate IsMember(db: Db, chatId: Id, userId: Id) {
    exists p :: p in db.participants && p.chatId == chatId && p.userId == userId
  }

  /** The ids of the chats `userId` has a participant row in, in row order. */
  function MemberChatIds(ps: seq<ParticipantRow>, userId: Id): (r: seq<Id>)
    ensures forall id :: id in r <==> exists p :: p in ps && p.userId == userId && p.chatId == id
    decreases |ps|
  {
    if |ps| == 0 then []
    else
      var rest := MemberChatIds(ps[1..], userId);
      assert forall p :: p in ps[1..] ==> p in ps;
      assert forall p :: p in ps ==> p == ps[0] || p in ps[1..];
      if ps[0].userId == userId then [ps[0].chatId] + rest else rest
  }

  /** `.in("id", ids)`: the chat rows whose id is listed, in table order. */
  function ChatsWithIds(chats: seq<ChatRow>, ids: seq<Id>): (r: seq<ChatRow>)
    ensures forall c :: c in r <==> c in chats && c.id in ids
    ensures IsSubsequence(r, chats)
    ensures ids == [] ==> r == []
    decreases |chats|
  {
    if |chats| == 0 then []
    else
      var rest := ChatsWithIds(chats[1..], ids);
      assert forall c :: c in chats ==> c == chats[0] || c in chats[1..];
      if chats[0].id in ids then [chats[0]] + rest else rest
  }

  /** The participant users of a chat: its participant rows joined with the
      users table, rows whose user is missing dropped. */
  function ParticipantUsers(ps: seq<ParticipantRow>, users: seq<UserRow>, chatId: Id): (r: seq<UserRow>)
    ensures forall u :: u in r ==> u in users
    ensures forall u :: u in r ==> exists p :: p in ps && p.chatId == chatId && p.userId == u.id
    ensures forall p :: p in ps && p.chatId == chatId && FindUser(users, p.userId).Some?
                        ==> FindUser(users, p.userId).value in r
    decreases |ps|
  {
    if |ps| == 0 then []
    else
      var rest := ParticipantUsers(ps[1..], users, chatId);
      assert forall p :: p in ps ==> p == ps[0] || p in ps[1..];
      if ps[0].chatId == chatId && FindUser(users, ps[0].userId).Some?
      then [FindUser(users, ps[0].userId).value] + rest
      else rest
  }

  /** The tag rows of a chat, in table order. */
  function TagRowsOf(ts: seq<TagRow>, chatId: Id): (r: seq<TagRow>)
    ensures forall t :: t in r <==> t in ts && t.chatId == chatId
    ensures IsSubsequence(r, ts)
    decreases |ts|
  {
    if |ts| == 0 then []
    else
      var rest := TagRowsOf(ts[1..], chatId);
      assert forall t :: t in ts ==> t == ts[0] || t in ts[1..];
      if ts[0].chatId == chatId then [ts[0]] + rest else rest
  }

  predicate HasMessages(ms: seq<MessageRow>, chatId: Id) {
    exists m :: m in ms && m.chatId == chatId
  }

  /** The newest message of a chat (`order created_at desc, limit 1`). The
      database breaks ties arbitrarily; the model keeps the earliest row. */
  function LatestMessage(ms: seq<MessageRow>, chatId: Id): (r: Option<MessageRow>)
    ensures r.None? <==> !HasMessages(ms, chatId)
    ensures r.Some? ==> r.value in ms && r.value.chatId == chatId
    ensures r.Some? ==> forall m :: m in ms && m.chatId == chatId ==> m.createdAt <= r.value.createdAt
    decreases |ms|
  {
    if |ms| == 0 then None
    else
      var front := ms[..|ms| - 1];
      var m := ms[|ms| - 1];
      assert ms == front + [m];
      var best := LatestMessage(front, chatId);
      if m.chatId != chatId then best
      else if best.Some? && best.value.createdAt >= m.createdAt then best
      else Some(m)
  }

  /** The sender shown in front of the last message: the first participant
      with the sender's id, by full name; "Unknown" when there is none or the
      name is empty. */
  function SenderName(ps: seq<UserRow>, userId: Id): (r: string)
    ensures r != ""
    ensures (forall p :: p in ps ==> p.id != userId) ==> r == "Unknown"
    ensures r != "Unknown" ==> exists p :: p in ps && p.id == userId && p.fullName == r
    ensures forall k :: 0 <= k < |ps| && ps[k].id == userId && ps[k].fullName != ""
                        && (forall j :: 0 <= j < k ==> ps[j].id != userId)
                        ==> r == ps[k].fullName
  {
    var sender := FindUser(ps, userId);
    if sender.Some? then
      ghost var k :| 0 <= k < |ps| && ps[k] == sender.value
                     && forall j :: 0 <= j < k ==> ps[j].id != userId;
      assert forall k' :: (0 <= k' < |ps| && ps[k'].id == userId
                           && (forall j :: 0 <= j < k' ==> ps[j].id != userId)) ==> k' == k;
      OrElse(sender.value.fullName, Unknown)
    else Unknown
  }

  /** A participant as the chat list shows it: the phone falls back to a
      fixed placeholder number. */
  function ListedUser(u: UserRow): (r: User)
    ensures r.id == u.id && r.fullName == u.fullName && r.email == u.email
    ensures r.avatarUrl == MapUser(u).avatarUrl
    ensures r.phone.Some? && r.phone.value != ""
    ensures Truthy(u.phone).Some? ==> r.phone == u.phone
    ensures Truthy(u.phone).None? ==> r.phone == Some(DefaultUserPhone)
  {
    User(u.id, u.fullName, u.email, Truthy(u.avatarUrl),
         Some(Truthy(u.phone).GetOr(DefaultUserPhone)))
  }

  /** The phone shown for a chat: the first participant's non-empty phone,
      else a fixed placeholder number. */
  function ChatPhone(participants: seq<UserRow>): (r: string)
    ensures r != ""
    ensures |participants| > 0 && Truthy(participants[0].phone).Some? ==> r == participants[0].phone.value
    ensures |participants| == 0 || Truthy(participants[0].phone).None? ==> r == DefaultChatPhone
  {
    if |participants| > 0 then Truthy(participants[0].phone).GetOr(DefaultChatPhone) else DefaultChatPhone
  }

  function ListedUsers(participants: seq<UserRow>): (r: seq<User>)
    ensures |r| == |participants|
    ensures forall i :: 0 <= i < |r| ==> r[i] == ListedUser(participants[i])
  {
    seq(|participants|, i requires 0 <= i < |participants| => ListedUser(participants[i]))
  }

  /** The last-message fields of a chat's entry. */
  datatype LastLine = LastLine(text: string, time: Timestamp, status: string, kind: string)

  /** "sender: text" with the message's instant, status and attachment type
      (or "text") when there is a last message; "No messages yet" with the
      chat's creation instant otherwise. */
  function LastMessageLine(participants: seq<UserRow>, last: Option<MessageRow>, createdAt: Timestamp)
    : (r: LastLine)
    ensures last.None? ==> r == LastLine(NoMessagesYet, createdAt, DefaultStatus, DefaultType)
    ensures last.Some? ==>
              && r.text == SenderName(participants, last.value.userId) + ": " + last.value.text
              && r.time == last.value.createdAt && r.status == last.value.status
              && (last.value.attachmentType.Some? && last.value.attachmentType.value != ""
                  ==> r.kind == last.value.attachmentType.value)
              && (last.value.attachmentType.None? || last.value.attachmentType.value == ""
                  ==> r.kind == DefaultType)
  {
    if last.None? then LastLine(NoMessagesYet, createdAt, DefaultStatus, DefaultType)
    else
      var m := last.value;
      LastLine(SenderName(participants, m.userId) + ": " + m.text, m.createdAt, m.status,
               if Truthy(m.attachmentType).Some? then m.attachmentType.value else DefaultType)
  }

  /** One chat's entry in the list. */
  function Summarize(db: Db, chat: ChatRow, userId: Id, faults: QueryFaults): (r: ChatData)
    ensures r.id == chat.id && r.name == chat.name
    ensures chat.id in faults.unreadCountMissing ==> r.unreadCount == 0
    ensures chat.id !in faults.unreadCountMissing
            ==> r.unreadCount == UnreadCount(db.messages, chat.id, userId)
    ensures r.avatar == Truthy(chat.avatarUrl)
    ensures r.phone.Some? && r.phone.value != ""
    ensures r.phone == Some(ChatPhone(ParticipantUsers(db.participants, db.users, chat.id)))
    ensures r.participants == ListedUsers(ParticipantUsers(db.participants, db.users, chat.id))
    ensures chat.id in faults.tagsMissing ==> r.tags == []
    ensures chat.id !in faults.tagsMissing ==> r.tags == TagsOf(TagRowsOf(db.tags, chat.id))
  {
    var participants := ParticipantUsers(db.participants, db.users, chat.id);
    var last := if chat.id in faults.lastMessageMissing then None
                else LatestMessage(db.messages, chat.id);
    var line := LastMessageLine(participants, last, chat.createdAt);
    var unread := if chat.id in faults.unreadCountMissing then 0
                  else UnreadCount(db.messages, chat.id, userId);
    var tags := if chat.id in faults.tagsMissing then []
                else TagsOf(TagRowsOf(db.tags, chat.id));
    ChatData(
      chat.id, chat.name, Truthy(chat.avatarUrl),
      line.text, line.time, line.status, line.kind,
      unread, Some(ChatPhone(participants)), ListedUsers(participants), tags)
  }

  /** The last-message fields of a chat's entry: the defaults when the chat
      has no messages or the query failed, otherwise the chat's latest
      message as "sender: text" with its instant, status and kind. */
  lemma SummarizeLastMessage(db: Db, chat: ChatRow, userId: Id, faults: QueryFaults)
    ensures var r := Summarize(db, chat, userId, faults);
            chat.id in faults.lastMessageMissing || !HasMessages(db.messages, chat.id) ==>
              && r.lastMessage == "No messages yet"
              && r.lastMessageTime == chat.createdAt
              && r.lastMessageStatus == "sent"
              && r.lastMessageType == "text"
    ensures var r := Summarize(db, chat, userId, faults);
            chat.id !in faults.lastMessageMissing && HasMessages(db.messages, chat.id) ==>
              exists m :: m in db.messages && m.chatId == chat.id
                && (forall m' :: m' in db.messages && m'.chatId == chat.id ==> m'.createdAt <= m.createdAt)
                && r.lastMessage == SenderName(ParticipantUsers(db.participants, db.users, chat.id), m.userId)
                                    + ": " + m.text
                && r.lastMessageTime == m.createdAt
                && r.lastMessageStatus == m.status
                && (Truthy(m.attachmentType).Some? ==> r.lastMessageType == m.attachmentType.value)
                && (Truthy(m.attachmentType).None? ==> r.lastMessageType == "text")
  {
    var participants := ParticipantUsers(db.participants, db.users, chat.id);
    var last := if chat.id in faults.lastMessageMissing then None
                else LatestMessage(db.messages, chat.id);
    var line := LastMessageLine(participants, last, chat.createdAt);
    assert Summarize(db, chat, userId, faults).lastMessage == line.text;
    assert Summarize(db, chat, userId, faults).lastMessageType == line.kind;
  }

  function SummarizeAll(db: Db, chats: seq<ChatRow>, userId: Id, faults: QueryFaults): (r: seq<ChatData>)
    ensures |r| == |chats|
    ensures forall j :: 0 <= j < |chats| ==> r[j] == Summarize(db, chats[j], userId, faults)
  {
    seq(|chats|, j requires 0 <= j < |chats| => Summarize(db, chats[j], userId, faults))
  }

  /** The chat rows of the chats `userId` takes part in, in table order. */
  function MemberChats(db: Db, userId: Id): (r: seq<ChatRow>)
    ensures forall c :: c in r <==> c in db.chats && IsMember(db, c.id, userId)
    ensures IsSubsequence(r, db.chats)
  {
    ChatsWithIds(db.chats, MemberChatIds(db.participants, userId))
  }

  /** `getChats`. Without a signed-in user, after a failed up-front query,
      or when the user takes part in no chat, the list is empty. */
  function GetChats(auth: Option<Id>, db: Db, faults: QueryFaults): (r: seq<ChatData>)
    ensures auth.None? || faults.participantQueryFailed || faults.chatQueryFailed ==> r == []
    ensures auth.Some? && !faults.participantQueryFailed && !faults.chatQueryFailed ==>
              && |r| == |MemberChats(db, auth.value)|
              && forall j :: 0 <= j < |r| ==>
                   r[j] == Summarize(db, MemberChats(db, auth.value)[j], auth.value, faults)
  {
    if auth.None? || faults.participantQueryFailed then []
    else
      var ids := MemberChatIds(db.participants, auth.value);
      if |ids| == 0 then
        []
      else if faults.chatQueryFailed then []
      else SummarizeAll(db, MemberChats(db, auth.value), auth.value, faults)
  }

  /** The listing holds an entry for every chat the user takes part in, and
      for no other chat. */
  lemma GetChatsListsExactlyMemberChats(auth: Option<Id>, db: Db, faults: QueryFaults)
    ensures forall j :: 0 <= j < |GetChats(auth, db, faults)| ==>
              auth.Some? && IsMember(db, GetChats(auth, db, faults)[j].id, auth.value)
    ensures auth.Some? && !faults.participantQueryFailed && !faults.chatQueryFailed ==>
              forall c :: c in db.chats && IsMember(db, c.id, auth.value) ==>
                exists j :: 0 <= j < |GetChats(auth, db, faults)|
                            && GetChats(auth, db, faults)[j] == Summarize(db, c, auth.value, faults)
  {
    var r := GetChats(auth, db, faults);
    if auth.Some? && !faults.participantQueryFailed && !faults.chatQueryFailed {
      var chats := MemberChats(db, auth.value);
      forall j | 0 <= j < |r|
        ensures IsMember(db, r[j].id, auth.value)
      {
        assert chats[j] in chats;
      }
      forall c | c in db.chats && IsMember(db, c.id, auth.value)
        ensures exists j :: 0 <= j < |r| && r[j] == Summarize(db, c, auth.value, faults)
      {
        var j :| 0 <= j < |chats| && chats[j] == c;
        assert r[j] == Summarize(db, c, auth.value, faults);
      }
    }
  }

  /** A chat without messages is listed as "No messages yet" with nothing unread. */
  lemma EmptyChatSummary(db: Db, chat: ChatRow, userId: Id, faults: QueryFaults)
    requires !HasMessages(db.messages, chat.id)
    ensures Summarize(db, chat, userId, faults).lastMessage == "No messages yet"
    ensures Summarize(db, chat, userId, faults).unreadCount == 0
  {
    SummarizeLastMessage(db, chat, userId, faults);
    OwnMessagesNeverUnread(db.messages, chat.id, userId);
  }
}

=== FILE: common.dfy ===
/** Small building blocks shared by every part of the chat client model:
    an optional value, JavaScript-style string helpers, and sequence
    predicates (duplicate-freedom, order-preserving subsequence). */
module Common {

  /** A value that may be absent (`null` or `undefined` in the client). */
  datatype Option<+T> = None | Some(value: T) {
    function GetOr(default: T): T {
      match this
      case Some(v) => v
      case None => default
    }
  }

  /** `x || undefined` on an optional string: both a missing value and the
      empty string (which is falsy) become absent. */
  function Truthy(o: Option<string>): (r: Option<string>)
    ensures r.Some? <==> o.Some? && o.value != ""
    ensures r.Some? ==> r == o
  {
    if o.Some? && o.value != "" then o else None
  }

  /** `s || fallback` on a string. */
  function OrElse(s: string, fallback: string): (r: string)
    ensures s != "" ==> r == s
    ensures s == "" ==> r == fallback
  {
    if s != "" then s else fallback
  }

  /** `String.prototype.includes`: `sub` occurs in `s` at some offset. */
  predicate Contains(s: string, sub: string) {
    exists i :: 0 <= i <= |s| - |sub| && OccursAt(s, sub, i)
  }

  predicate OccursAt(s: string, sub: string, i: int) {
    0 <= i && i + |sub| <= |s| && s[i..i + |sub|] == sub
  }

  /** `toLowerCase`, restricted to the ASCII letters. */
  function LowerChar(c: char): (r: char)
    ensures 'A' <= c <= 'Z' ==> r as int == c as int + 32
    ensures !('A' <= c <= 'Z') ==> r == c
  {
    if 'A' <= c <= 'Z' then (c as int + 32) as char else c
  }

  function Lower(s: string): (r: string)
    ensures |r| == |s|
    ensures forall i :: 0 <= i < |s| ==> r[i] == LowerChar(s[i])
  {
    seq(|s|, i requires 0 <= i < |s| => LowerChar(s[i]))
  }

  /** `xs.join(sep)`. */
  function Join(xs: seq<string>, sep: string): (r: string)
    ensures |xs| == 0 ==> r == ""
    ensures |xs| > 0 ==> |xs[0]| <= |r| && r[..|xs[0]|] == xs[0]
    decreases |xs|
  {
    if |xs| == 0 then ""
    else if |xs| == 1 then xs[0]
    else xs[0] + sep + Join(xs[1..], sep)
  }

  /** Joining one more string puts one separator and the string at the end. */
  lemma {:induction false} JoinAppend(xs: seq<string>, x: string, sep: string)
    requires |xs| > 0
    ensures Join(xs + [x], sep) == Join(xs, sep) + sep + x
    decreases |xs|
  {
    assert (xs + [x])[0] == xs[0];
    if |xs| > 1 {
      assert (xs + [x])[1..] == xs[1..] + [x];
      JoinAppend(xs[1..], x, sep);
    } else {
      assert (xs + [x])[1..] == [x];
    }
  }

  predicate NoDuplicates<T(==)>(xs: seq<T>) {
    forall i, j :: 0 <= i < j < |xs| ==> xs[i] != xs[j]
  }

  /** `xs` is `ys` with some elements dropped, the rest in the same order. */
  /** The position of the first occurrence of `x` in `xs`. */
  function FirstIndex<T(==)>(xs: seq<T>, x: T): (k: nat)
    requires x in xs
    ensures k < |xs| && xs[k] == x && x !in xs[..k]
    decreases |xs|
  {
    if xs[0] == x then 0
    else
      var k := FirstIndex(xs[1..], x);
      assert xs[..k + 1] == [xs[0]] + xs[1..][..k];
      k + 1
  }

  /** A position holding `x` with no earlier `x` is the first index. */
  lemma FirstIndexUnique<T>(xs: seq<T>, x: T, k: nat)
    requires k < |xs| && xs[k] == x && x !in xs[..k]
    ensures FirstIndex(xs, x) == k
  {
  }

  /** Appending an element does not move an earlier first occurrence. */
  lemma FirstIndexSnoc<T>(front: seq<T>, x: T, y: T)
    requires y in front
    ensures FirstIndex(front + [x], y) == FirstIndex(front, y)
  {
    var k := FirstIndex(front, y);
    assert (front + [x])[..k] == front[..k];
    FirstIndexUnique(front + [x], y, k);
  }

  predicate IsSubsequence<T(==)>(xs: seq<T>, ys: seq<T>)
    decreases |ys|
  {
    if |xs| == 0 then true
    else if |ys| == 0 then false
    else if xs[0] == ys[0] then IsSubsequence(xs[1..], ys[1..])
    else IsSubsequence(xs, ys[1..])
  }

  lemma {:induction false} SubsequenceOfItself<T>(xs: seq<T>)
    ensures IsSubsequence(xs, xs)
    decreases |xs|
  {
    if |xs| > 0 {
      SubsequenceOfItself(xs[1..]);
    }
  }

  /** `xs.filter(y => y !== x)`: every element equal to `x` dropped, the
      others kept in order. */
  function RemoveAll<T(==,!new)>(xs: seq<T>, x: T): (r: seq<T>)
    ensures forall y :: multiset(r)[y] == if y == x then 0 else multiset(xs)[y]
    ensures forall y :: y in r <==> y in xs && y != x
    ensures IsSubsequence(r, xs)
    ensures x !in xs ==> r == xs
    decreases |xs|
  {
    if |xs| == 0 then []
    else
      var rest := RemoveAll(xs[1..], x);
      assert xs == [xs[0]] + xs[1..];
      assert multiset(xs) == multiset{xs[0]} + multiset(xs[1..]);
      if xs[0] == x then
        assert |rest| > 0 ==> rest[0] != xs[0];
        rest
      else
        var r := [xs[0]] + rest;
        assert r[1..] == rest;
        assert multiset(r) == multiset{xs[0]} + multiset(rest);
        r
  }

  /** Filtering keeps a duplicate-free sequence duplicate-free. */
  lemma {:induction false} RemoveAllKeepsNoDuplicates<T(!new)>(xs: seq<T>, x: T)
    ensures NoDuplicates(xs) ==> NoDuplicates(RemoveAll(xs, x))
    decreases |xs|
  {
    if |xs| > 0 && NoDuplicates(xs) {
      assert NoDuplicates(xs[1..]) by {
        forall i, j | 0 <= i < j < |xs| - 1 ensures xs[1..][i] != xs[1..][j] {
          assert xs[1..][i] == xs[i + 1] && xs[1..][j] == xs[j + 1];
        }
      }
      RemoveAllKeepsNoDuplicates(xs[1..], x);
      if xs[0] != x {
        assert xs[0] !in xs[1..] by {
          forall k | 0 <= k < |xs| - 1 ensures xs[1..][k] != xs[0] {
            assert xs[1..][k] == xs[k + 1];
          }
        }
        var rest := RemoveAll(xs[1..], x);
        var r := [xs[0]] + rest;
        assert RemoveAll(xs, x) == r;
        forall i, j | 0 <= i < j < |r| ensures r[i] != r[j] {
          if i == 0 {
            assert r[j] == rest[j - 1] && rest[j - 1] in rest;
          } else {
            assert r[i] == rest[i - 1] && r[j] == rest[j - 1];
          }
        }
      }
    }
  }
}

=== FILE: composer.dfy ===
/** The chat service's writes: `createChat` (chat row, participant rows,
    tag rows, with a compensating delete), `addChatTag` and `sendMessage`.
    Ids (uuidv4), timestamps (`new Date()`) and the database's answer to
    each write are parameters. A row whose primary key is already taken is
    rejected by the database, so the model rejects such inserts too. */
module Composer {
  import opened Common
  import opened Schema
  import opened Mappers
  import ChatDirectory

  /** What the database answered to each step of `createChat`. */
  datatype CreateAnswers = CreateAnswers(
    chatInsertOk: bool,
    participantInsertOk: bool,
    cleanupOk: bool,
    tagInsertOk: bool,
    fetchOk: bool)

  /** The created chat as returned to the caller (null when absent), and
      the store after every write that took effect. */
  datatype CreateResult = CreateResult(chat: Option<ChatData>, db: Db)

  /** `[...new Set(xs)]`: each id once, at its first occurrence. */
  function Dedup(xs: seq<Id>): (r: seq<Id>)
    ensures NoDuplicates(r)
    ensures forall x :: x in r <==> x in xs
    ensures |r| <= |xs|
    decreases |xs|
  {
    if |xs| == 0 then []
    else
      var front := xs[..|xs| - 1];
      var x := xs[|xs| - 1];
      assert xs == front + [x];
      var d := Dedup(front);
      if x in d then d else d + [x]
  }

  /** `[...new Set(xs)]` lists the ids in the order of their first
      occurrence in `xs`. With the members and the absence of duplicates
      this determines the result. */
  lemma {:induction false} DedupKeepsFirstOccurrenceOrder(xs: seq<Id>)
    ensures forall i, j :: 0 <= i < j < |Dedup(xs)| ==>
              FirstIndex(xs, Dedup(xs)[i]) < FirstIndex(xs, Dedup(xs)[j])
    decreases |xs|
  {
    if |xs| > 0 {
      var front := xs[..|xs| - 1];
      var x := xs[|xs| - 1];
      assert xs == front + [x];
      var d := Dedup(front);
      DedupKeepsFirstOccurrenceOrder(front);
      forall y | y in d ensures FirstIndex(xs, y) == FirstIndex(front, y) {
        FirstIndexSnoc(front, x, y);
      }
      if x !in d {
        assert xs[..|front|] == front;
        FirstIndexUnique(xs, x, |front|);
        var r := d + [x];
        forall i, j | 0 <= i < j < |r| ensures FirstIndex(xs, r[i]) < FirstIndex(xs, r[j]) {
          assert r[i] == d[i];
          if j < |d| {
            assert r[j] == d[j];
          } else {
            assert r[j] == x;
          }
        }
      }
    }
  }

  /** One participant row per member; the creator is the admin. */
  function ParticipantRecords(chatId: Id, members: seq<Id>, creator: Id): (r: seq<ParticipantRow>)
    ensures |r| == |members|
    ensures forall i :: 0 <= i < |r| ==>
              && r[i].chatId == chatId && r[i].userId == members[i]
              && (r[i].role == "admin" <==> members[i] == creator)
              && (r[i].role == "member" <==> members[i] != creator)
  {
    seq(|members|, i requires 0 <= i < |members| =>
      ParticipantRow(chatId, members[i], if members[i] == creator then RoleAdmin else RoleMember))
  }

  /** The participant rows `createChat` inserts: the requested users and
      the creator, each once; the creator is the admin, everyone else a member. */
  function NewParticipants(chatId: Id, participantIds: seq<Id>, creator: Id): (r: seq<ParticipantRow>)
    ensures forall i, j :: 0 <= i < j < |r| ==> r[i].userId != r[j].userId
    ensures forall id :: (exists p :: p in r && p.userId == id) <==> id in participantIds || id == creator
    ensures forall p :: p in r ==> p.chatId == chatId
    ensures forall p :: p in r ==> (p.role == "admin" <==> p.userId == creator)
    ensures forall p :: p in r ==> (p.role == "member" <==> p.userId != creator)
  {
    var members := Dedup(participantIds + [creator]);
    assert forall id :: id in members <==> id in participantIds || id == creator;
    var r := ParticipantRecords(chatId, members, creator);
    assert forall p :: p in r ==> exists i :: 0 <= i < |r| && r[i] == p;
    r
  }

  predicate TagIdTaken(tags: seq<TagRow>, id: Id) {
    exists t :: t in tags && t.id == id
  }

  /** A batch of tag ids the tags table can take in one insert: distinct,
      and none of them already a key. */
  predicate TagIdsFree(tags: seq<TagRow>, ids: seq<Id>) {
    NoDuplicates(ids) && forall i :: 0 <= i < |ids| ==> !TagIdTaken(tags, ids[i])
  }

  /** One tag row per requested tag, with the given fresh ids. */
  function TagRecords(chatId: Id, tags: seq<Tag>, ids: seq<Id>, now: Timestamp): (r: seq<TagRow>)
    requires |ids| == |tags|
    ensures |r| == |tags|
    ensures forall i :: 0 <= i < |r| ==>
              r[i] == TagRow(ids[i], chatId, tags[i].tagType, tags[i].tagLabel, now)
  {
    seq(|tags|, i requires 0 <= i < |tags| =>
      TagRow(ids[i], chatId, tags[i].tagType, tags[i].tagLabel, now))
  }

  /** `delete().eq("id", chatId)` on the chats table. */
  function DeleteChat(chats: seq<ChatRow>, chatId: Id): seq<ChatRow>
    decreases |chats|
  {
    if |chats| == 0 then []
    else
      var rest := DeleteChat(chats[1..], chatId);
      if chats[0].id == chatId then rest else [chats[0]] + rest
  }

  /** The delete keeps exactly the rows with another id, and is the
      identity when no row has the id. */
  lemma {:induction false} DeleteChatFacts(chats: seq<ChatRow>, chatId: Id)
    ensures forall c :: c in DeleteChat(chats, chatId) <==> c in chats && c.id != chatId
    ensures (forall c :: c in chats ==> c.id != chatId) ==> DeleteChat(chats, chatId) == chats
    decreases |chats|
  {
    if |chats| > 0 {
      DeleteChatFacts(chats[1..], chatId);
      assert chats == [chats[0]] + chats[1..];
      assert forall c :: c in chats ==> c == chats[0] || c in chats[1..];
    }
  }

  /** What `mapChat` makes of chat `chatId` fetched with its joins from
      `db`: the joined participants as users, the first one's phone, the
      chat's tags, no avatar, and the default status and type. */
  predicate MapsJoinedChat(c: ChatData, db: Db, chatId: Id) {
    var users := ChatDirectory.ParticipantUsers(db.participants, db.users, chatId);
    && c.id == chatId
    && c.participants == MapUsers(users)
    && c.tags == TagsOf(ChatDirectory.TagRowsOf(db.tags, chatId))
    && c.phone == (if |users| > 0 then MapUser(users[0]).phone else None)
    && c.avatar.None? && c.lastMessageStatus == "sent" && c.lastMessageType == "text"
  }

  /** Deleting by id right after inserting a row with that id, into a table
      where the id was free, restores the table. */
  lemma {:induction false} DeleteAppended(chats: seq<ChatRow>, row: ChatRow, chatId: Id)
    requires row.id == chatId
    requires forall c :: c in chats ==> c.id != chatId
    ensures DeleteChat(chats + [row], chatId) == chats
    decreases |chats|
  {
    var all := chats + [row];
    if |chats| == 0 {
      assert all == [row] && all[1..] == [];
      assert DeleteChat(all, chatId) == DeleteChat([], chatId);
    } else {
      var tail := chats[1..];
      assert all[0] == chats[0] && all[1..] == tail + [row];
      assert chats[0] in chats;
      assert forall c :: c in tail ==> c in chats;
      DeleteAppended(tail, row, chatId);
      assert DeleteChat(all, chatId) == [chats[0]] + DeleteChat(tail + [row], chatId);
      assert chats == [chats[0]] + tail;
    }
  }

  /** `createChat(name, isGroup, participantIds, tags)` by the signed-in user.
      A rejected chat insert fails the call; a rejected participant insert
      deletes the chat row again and fails the call; a rejected tag insert is
      ignored, and so is a tag batch that reuses a taken or repeated id. An
      absent tag list is the empty one. */
  function CreateChat(auth: Option<Id>, db: Db, name: string, isGroup: bool,
                      participantIds: seq<Id>, tags: seq<Tag>,
                      chatId: Id, tagIds: seq<Id>, now: Timestamp, answers: CreateAnswers)
    : (r: CreateResult)
    requires |tagIds| == |tags|
    // Failure before anything was written: nothing changes.
    ensures auth.None? || !answers.chatInsertOk || FindChat(db.chats, chatId).Some? ==>
              r.chat.None? && r.db == db
    // The participant insert failed: the call fails, and a successful
    // clean-up leaves no trace of the chat.
    ensures auth.Some? && answers.chatInsertOk && FindChat(db.chats, chatId).None?
            && !answers.participantInsertOk ==>
              && r.chat.None?
              && (answers.cleanupOk ==> r.db == db)
              && (!answers.cleanupOk ==>
                    r.db == db.(chats := db.chats + [ChatRow(chatId, name, None, isGroup, auth.value, now)]))
              && (forall c :: c in r.db.chats && c.id == chatId ==> !answers.cleanupOk)
              && r.db.participants == db.participants && r.db.tags == db.tags
    // Both inserts succeeded.
    ensures auth.Some? && answers.chatInsertOk && FindChat(db.chats, chatId).None?
            && answers.participantInsertOk ==>
              && r.db.users == db.users && r.db.messages == db.messages
              && r.db.chats == db.chats + [ChatRow(chatId, name, None, isGroup, auth.value, now)]
              && r.db.participants == db.participants + NewParticipants(chatId, participantIds, auth.value)
              && (|tags| > 0 && answers.tagInsertOk && TagIdsFree(db.tags, tagIds) ==>
                    r.db.tags == db.tags + TagRecords(chatId, tags, tagIds, now))
              && (|tags| == 0 || !answers.tagInsertOk || !TagIdsFree(db.tags, tagIds) ==>
                    r.db.tags == db.tags)
              && (r.chat.Some? <==> answers.fetchOk)
              && (r.chat.Some? ==>
                    && r.chat.value.id == chatId && r.chat.value.name == name
                    && r.chat.value.unreadCount == 0
                    && r.chat.value.lastMessage == "No messages yet"
                    && r.chat.value.lastMessageTime == now
                    && MapsJoinedChat(r.chat.value, r.db, chatId))
  {
    if auth.None? || !answers.chatInsertOk || FindChat(db.chats, chatId).Some? then
      CreateResult(None, db)
    else
      var creator := auth.value;
      var row := ChatRow(chatId, name, None, isGroup, creator, now);
      var db1 := db.(chats := db.chats + [row]);
      var records := NewParticipants(chatId, participantIds, creator);
      if !answers.participantInsertOk then
        if answers.cleanupOk then
          DeleteAppended(db.chats, row, chatId);
          CreateResult(None, db1.(chats := DeleteChat(db1.chats, chatId)))
        else
          assert row in db1.chats;
          CreateResult(None, db1)
      else
        var db2 := db1.(participants := db1.participants + records);
        var db3 := if |tags| > 0 && answers.tagInsertOk && TagIdsFree(db.tags, tagIds)
                   then db2.(tags := db2.tags + TagRecords(chatId, tags, tagIds, now))
                   else db2;
        if !answers.fetchOk then CreateResult(None, db3)
        else
          // The chat row fetched back by id is the one just inserted.
          var fetched := ChatWithParticipants(
            row,
            ChatDirectory.ParticipantUsers(db3.participants, db3.users, chatId),
            ChatDirectory.TagRowsOf(db3.tags, chatId));
          CreateResult(Some(MapChatDefaults(fetched, now)), db3)
  }

  /** `addChatTag(chatId, type, label)`: one tag row, reported as true when
      the insert went through. The row's id and instant are the database's
      defaults, given here as parameters. No duplicate check on the (type,
      label) pair and no sign-in check. */
  function AddChatTag(db: Db, chatId: Id, tagType: string, tagLabel: string,
                      id: Id, now: Timestamp, insertOk: bool): (r: (bool, Db))
    ensures r.0 <==> insertOk && !TagIdTaken(db.tags, id)
    ensures !r.0 ==> r.1 == db
    ensures r.0 ==> TagRow(id, chatId, tagType, tagLabel, now)
                    in ChatDirectory.TagRowsOf(r.1.tags, chatId)
    ensures r.0 ==> |r.1.tags| == |db.tags| + 1 && r.1.tags[..|db.tags|] == db.tags
    ensures r.1.chats == db.chats && r.1.messages == db.messages
            && r.1.participants == db.participants && r.1.users == db.users
  {
    if insertOk && !TagIdTaken(db.tags, id)
    then (true, db.(tags := db.tags + [TagRow(id, chatId, tagType, tagLabel, now)]))
    else (false, db)
  }

  datatype Attachment = Attachment(url: string, kind: string)

  /** A message enriched with its sender (`MessagePopulated`). The display
      time is not modelled. */
  datatype MessagePopulated = MessagePopulated(
    message: MessageRow, senderId: Id, senderName: string, chat: Option<ChatData>)

  /** What the caller of `sendMessage` sees: null, a message, or a rejected
      promise. */
  datatype SendOutcome = NoMessage | Returned(populated: MessagePopulated) | Rejected

  datatype SendResult = SendResult(outcome: SendOutcome, db: Db)

  /** The record `sendMessage` inserts. Empty optional values are sent as null. */
  function NewMessage(messageId: Id, chatId: Id, senderId: Id, text: string, now: Timestamp,
                      forwardedFrom: Option<string>, attachment: Option<Attachment>): (r: MessageRow)
    ensures r.id == messageId && r.chatId == chatId && r.userId == senderId
    ensures r.text == text && r.createdAt == now && r.status == "sent"
    ensures r.forwardedFrom.Some? <==> forwardedFrom.Some? && forwardedFrom.value != ""
    ensures r.forwardedFrom.Some? ==> r.forwardedFrom == forwardedFrom
    ensures r.attachmentUrl.Some? <==> attachment.Some? && attachment.value.url != ""
    ensures r.attachmentUrl.Some? ==> r.attachmentUrl.value == attachment.value.url
    ensures r.attachmentType.Some? <==> attachment.Some? && attachment.value.kind != ""
    ensures r.attachmentType.Some? ==> r.attachmentType.value == attachment.value.kind
  {
    MessageRow(messageId, chatId, senderId, text, now, StatusSent, Truthy(forwardedFrom),
               if attachment.Some? then Truthy(Some(attachment.value.url)) else None,
               if attachment.Some? then Truthy(Some(attachment.value.kind)) else None)
  }

  predicate MessageIdTaken(ms: seq<MessageRow>, id: Id) {
    exists m :: m in ms && m.id == id
  }

  /** What the database answered to each request of `sendMessage`: the
      sender's user row read, the message insert, and the chat read after it. */
  datatype SendAnswers = SendAnswers(userReadOk: bool, insertOk: bool, chatReadOk: bool)

  /** The sender's display name: the full name from their user row, or
      "Unknown" when the read failed, found no row, or the name is empty. */
  function SenderDisplayName(users: seq<UserRow>, senderId: Id, readOk: bool): (r: string)
    ensures r != ""
    ensures !readOk || FindUser(users, senderId).None? ==> r == "Unknown"
    ensures readOk && FindUser(users, senderId).Some? && FindUser(users, senderId).value.fullName != ""
            ==> r == FindUser(users, senderId).value.fullName
  {
    var u := if readOk then FindUser(users, senderId) else None;
    if u.Some? then OrElse(u.value.fullName, "Unknown") else "Unknown"
  }

  /** `sendMessage` as written: after the insert it maps the chat it fetched
      with `mapChat`, whose input must carry a `participants` list; the
      fetched row only carries `chat_participants`, so reading the first
      participant throws whenever the chat read finds the chat, after the
      message was stored. A failed chat read or a missing chat gives a
      message without a chat. */
  function SendMessageAsWritten(auth: Option<Id>, db: Db, chatId: Id, text: string,
                                forwardedFrom: Option<string>, attachment: Option<Attachment>,
                                messageId: Id, now: Timestamp, answers: SendAnswers): (r: SendResult)
    ensures auth.None? || !answers.insertOk || MessageIdTaken(db.messages, messageId) ==>
              r == SendResult(NoMessage, db)
    ensures auth.Some? && answers.insertOk && !MessageIdTaken(db.messages, messageId) ==>
              r.db.messages == db.messages
                + [NewMessage(messageId, chatId, auth.value, text, now, forwardedFrom, attachment)]
    ensures (auth.Some? && answers.insertOk && !MessageIdTaken(db.messages, messageId)
             && answers.chatReadOk && FindChat(db.chats, chatId).Some?) ==> r.outcome.Rejected?
    ensures (auth.Some? && answers.insertOk && !MessageIdTaken(db.messages, messageId)
             && (!answers.chatReadOk || FindChat(db.chats, chatId).None?)) ==>
              r.outcome.Returned? && r.outcome.populated.chat.None?
  {
    if auth.None? || !answers.insertOk || MessageIdTaken(db.messages, messageId) then SendResult(NoMessage, db)
    else
      var row := NewMessage(messageId, chatId, auth.value, text, now, forwardedFrom, attachment);
      var db1 := db.(messages := db.messages + [row]);
      var name := SenderDisplayName(db.users, auth.value, answers.userReadOk);
      if answers.chatReadOk && FindChat(db1.chats, chatId).Some? then SendResult(Rejected, db1)
      else SendResult(Returned(MessagePopulated(row, auth.value, name, None)), db1)
  }

  /** `sendMessage` with the fetched chat mapped from its joined
      participants and tags, so a stored message is always returned. */
  function SendMessage(auth: Option<Id>, db: Db, chatId: Id, text: string,
                       forwardedFrom: Option<string>, attachment: Option<Attachment>,
                       messageId: Id, now: Timestamp, answers: SendAnswers): (r: SendResult)
    ensures auth.None? || !answers.insertOk || MessageIdTaken(db.messages, messageId) ==>
              r == SendResult(NoMessage, db)
    ensures auth.Some? && answers.insertOk && !MessageIdTaken(db.messages, messageId) ==>
              && r.outcome.Returned?
              && r.db == db.(messages := db.messages + [r.outcome.populated.message])
              && r.outcome.populated.message
                   == NewMessage(messageId, chatId, auth.value, text, now, forwardedFrom, attachment)
              && r.outcome.populated.senderId == auth.value
              && r.outcome.populated.senderName == SenderDisplayName(db.users, auth.value, answers.userReadOk)
              && (r.outcome.populated.chat.Some? <==> answers.chatReadOk && FindChat(db.chats, chatId).Some?)
              && (r.outcome.populated.chat.Some? ==>
                    && r.outcome.populated.chat.value.name == FindChat(db.chats, chatId).value.name
                    && r.outcome.populated.chat.value.unreadCount == 0
                    && r.outcome.populated.chat.value.lastMessage == "No messages yet"
                    && r.outcome.populated.chat.value.lastMessageTime == now
                    && MapsJoinedChat(r.outcome.populated.chat.value, db, chatId))
    ensures r.outcome.Rejected? == false
  {
    if auth.None? || !answers.insertOk || MessageIdTaken(db.messages, messageId) then SendResult(NoMessage, db)
    else
      var row := NewMessage(messageId, chatId, auth.value, text, now, forwardedFrom, attachment);
      var db1 := db.(messages := db.messages + [row]);
      var chat := if answers.chatReadOk then FindChat(db1.chats, chatId) else None;
      var mapped := if chat.Some? then
                      Some(MapChatDefaults(ChatWithParticipants(
                        chat.value,
                        ChatDirectory.ParticipantUsers(db1.participants, db1.users, chatId),
                        ChatDirectory.TagRowsOf(db1.tags, chatId)), now))
                    else None;
      SendResult(Returned(MessagePopulated(row, auth.value,
                                           SenderDisplayName(db.users, auth.value, answers.userReadOk),
                                           mapped)), db1)
  }

  /** A stored message is unread for every other user of the chat and for
      nobody else: one more unread for each recipient, none for the sender. */
  lemma SendRaisesUnreadForRecipients(auth: Option<Id>, db: Db, chatId: Id, text: string,
                                      forwardedFrom: Option<string>, attachment: Option<Attachment>,
                                      messageId: Id, now: Timestamp, answers: SendAnswers, reader: Id)
    requires auth.Some? && answers.insertOk && !MessageIdTaken(db.messages, messageId)
    ensures var after := SendMessage(auth, db, chatId, text, forwardedFrom, attachment,
                                     messageId, now, answers).db.messages;
            UnreadCount(after, chatId, reader)
            == UnreadCount(db.messages, chatId, reader) + (if reader != auth.value then 1 else 0)
  {
    var row := NewMessage(messageId, chatId, auth.value, text, now, forwardedFrom, attachment);
    UnreadCountAppend(db.messages, row, chatId, reader);
  }

  /** A send to an existing chat: as written, the message is stored and the
      call is still rejected; the corrected call returns the message with its
      chat. */
  lemma SendToExistingChatRejectedAsWritten()
    ensures var chat := ChatRow("c1", "Team", None, true, "u1", 0);
            var db := Db([], [chat], [], [], []);
            var ok := SendAnswers(true, true, true);
            var asWritten := SendMessageAsWritten(Some("u1"), db, "c1", "hi", None, None, "m1", 5, ok);
            var corrected := SendMessage(Some("u1"), db, "c1", "hi", None, None, "m1", 5, ok);
            && asWritten.outcome.Rejected? && |asWritten.db.messages| == 1
            && corrected.outcome.Returned? && corrected.outcome.populated.chat.Some?
            && corrected.db == asWritten.db
  {
  }
}

=== FILE: create_flow.dfy ===
/** The dialog and the service together: what pressing Create in the
    "Create New Chat" dialog puts in the store when every write succeeds. */
module CreateFlow {
  import opened Common
  import opened Schema
  import NewChatModal
  import Composer

  const AllAccepted := Composer.CreateAnswers(true, true, true, true, true)

  /** The service call the dialog makes, with every write accepted. */
  function CreateFromDialog(s: NewChatModal.ModalState, creator: Id, db: Db, chatId: Id,
                            tagIds: seq<Id>, now: Timestamp): (r: Composer.CreateResult)
    requires NewChatModal.BuildCreateRequest(s).Some?
    requires |tagIds| == |s.selectedTags|
    ensures FindChat(db.chats, chatId).None? ==> r.chat.Some? && r.chat.value.id == chatId
  {
    var req := NewChatModal.BuildCreateRequest(s).value;
    Composer.CreateChat(Some(creator), db, req.name, req.isGroup, req.participantIds,
                        req.tags, chatId, tagIds, now, AllAccepted)
  }

  /** The ids the dialog sends are exactly the selected users' ids. */
  lemma RequestIdsAreSelection(s: NewChatModal.ModalState)
    requires NewChatModal.BuildCreateRequest(s).Some?
    ensures forall id :: id in NewChatModal.BuildCreateRequest(s).value.participantIds
                         <==> NewChatModal.IsSelected(s.selectedUsers, id)
  {
    var ids := NewChatModal.BuildCreateRequest(s).value.participantIds;
    forall id ensures id in ids <==> NewChatModal.IsSelected(s.selectedUsers, id) {
      if id in ids {
        var i :| 0 <= i < |ids| && ids[i] == id;
        assert s.selectedUsers[i] in s.selectedUsers;
      }
      if NewChatModal.IsSelected(s.selectedUsers, id) {
        var v :| v in s.selectedUsers && v.id == id;
        var i :| 0 <= i < |s.selectedUsers| && s.selectedUsers[i] == v;
        assert ids[i] == id;
      }
    }
  }

  /** Creating the chat the dialog asks for makes exactly the selected users
      and the creator members of it, the creator alone an admin. */
  lemma DialogCreateAddsSelectedMembers(s: NewChatModal.ModalState, creator: Id, db: Db, chatId: Id,
                                        tagIds: seq<Id>, now: Timestamp)
    requires !NewChatModal.CreateDisabled(s)
    requires |tagIds| == |s.selectedTags|
    requires FindChat(db.chats, chatId).None?
    ensures var r := CreateFromDialog(s, creator, db, chatId, tagIds, now);
            && |r.db.participants| >= |db.participants|
            && r.db.participants[..|db.participants|] == db.participants
            && (forall id :: (exists p :: p in r.db.participants[|db.participants|..] && p.userId == id)
                  <==> NewChatModal.IsSelected(s.selectedUsers, id) || id == creator)
            && (forall p :: p in r.db.participants[|db.participants|..] ==>
                  p.chatId == chatId && (p.role == "admin" <==> p.userId == creator))
  {
    var req := NewChatModal.BuildCreateRequest(s).value;
    var r := CreateFromDialog(s, creator, db, chatId, tagIds, now);
    assert r.db.participants == db.participants + Composer.NewParticipants(chatId, req.participantIds, creator);
    assert r.db.participants[|db.participants|..] == Composer.NewParticipants(chatId, req.participantIds, creator);
    RequestIdsAreSelection(s);
  }

  /** Creating the chat the dialog asks for, with fresh tag ids, stores one
      tag row per selected tag, in selection order. */
  lemma DialogCreateStoresSelectedTags(s: NewChatModal.ModalState, creator: Id, db: Db, chatId: Id,
                                       tagIds: seq<Id>, now: Timestamp)
    requires !NewChatModal.CreateDisabled(s)
    requires |tagIds| == |s.selectedTags|
    requires FindChat(db.chats, chatId).None? && Composer.TagIdsFree(db.tags, tagIds)
    ensures var r := CreateFromDialog(s, creator, db, chatId, tagIds, now);
            && |r.db.tags| == |db.tags| + |s.selectedTags|
            && r.db.tags[..|db.tags|] == db.tags
            && (forall i :: 0 <= i < |s.selectedTags| ==>
                  r.db.tags[|db.tags| + i].chatId == chatId
                  && r.db.tags[|db.tags| + i].tagType == s.selectedTags[i].tagType
                  && r.db.tags[|db.tags| + i].tagLabel == s.selectedTags[i].tagLabel)
  {
    var r := CreateFromDialog(s, creator, db, chatId, tagIds, now);
    if |s.selectedTags| == 0 {
      assert r.db.tags == db.tags;
    } else {
      assert r.db.tags == db.tags + Composer.TagRecords(chatId, s.selectedTags, tagIds, now);
    }
  }
}

=== FILE: mappers.dfy ===
/** The client-side shapes of users and chats, and the two mappers the
    chat service uses to build them from stored rows (`mapUser`, `mapChat`). */
module Mappers {
  import opened Common
  import opened Schema

  /** A user as the client holds it. */
  datatype User = User(
    id: Id, fullName: string, email: string,
    avatarUrl: Option<string>, phone: Option<string>)

  /** A chat as the chat list shows it (`ChatData`). The last-message fields
      and the unread count are derived from the messages table. */
  datatype ChatData = ChatData(
    id: Id, name: string, avatar: Option<string>,
    lastMessage: string, lastMessageTime: Timestamp,
    lastMessageStatus: string, lastMessageType: string,
    unreadCount: nat, phone: Option<string>,
    participants: seq<User>, tags: seq<Tag>)

  /** A chat row together with its participants' user rows and its tag rows. */
  datatype ChatWithParticipants = ChatWithParticipants(
    chat: ChatRow, participants: seq<UserRow>, tags: seq<TagRow>)

  const NoMessagesYet := "No messages yet"
  const DefaultStatus := "sent"
  const DefaultType := "text"

  /** `mapUser`: optional columns that are null or empty become absent. */
  function MapUser(u: UserRow): (r: User)
    ensures r.id == u.id && r.fullName == u.fullName && r.email == u.email
    ensures r.avatarUrl.Some? <==> u.avatarUrl.Some? && u.avatarUrl.value != ""
    ensures r.phone.Some? <==> u.phone.Some? && u.phone.value != ""
    ensures r.avatarUrl.Some? ==> r.avatarUrl == u.avatarUrl
    ensures r.phone.Some? ==> r.phone == u.phone
  {
    User(u.id, u.fullName, u.email, Truthy(u.avatarUrl), Truthy(u.phone))
  }

  function MapUsers(us: seq<UserRow>): (r: seq<User>)
    ensures |r| == |us|
    ensures forall i :: 0 <= i < |us| ==> r[i] == MapUser(us[i])
  {
    seq(|us|, i requires 0 <= i < |us| => MapUser(us[i]))
  }

  function TagOf(t: TagRow): Tag {
    Tag(t.tagType, t.tagLabel)
  }

  function TagsOf(ts: seq<TagRow>): (r: seq<Tag>)
    ensures |r| == |ts|
    ensures forall i :: 0 <= i < |ts| ==> r[i].tagType == ts[i].tagType && r[i].tagLabel == ts[i].tagLabel
  {
    seq(|ts|, i requires 0 <= i < |ts| => TagOf(ts[i]))
  }

  /** `mapChat`. The chat's phone is the first participant's phone when it
      is non-empty. The avatar is written under a key that `ChatData` does
      not declare, so the `avatar` field stays absent. Display formatting of
      the time is not modelled: the instant is kept. */
  function MapChat(c: ChatWithParticipants, lastMessage: string, lastMessageTime: Timestamp,
                   unreadCount: nat): (r: ChatData)
    ensures r.id == c.chat.id && r.name == c.chat.name && r.avatar.None?
    ensures r.lastMessage == lastMessage && r.lastMessageTime == lastMessageTime
    ensures r.unreadCount == unreadCount
    ensures r.lastMessageStatus == "sent" && r.lastMessageType == "text"
    ensures |c.participants| == 0 ==> r.phone.None?
    ensures |c.participants| > 0 ==> r.phone == MapUser(c.participants[0]).phone
    ensures r.participants == MapUsers(c.participants)
    ensures |r.tags| == |c.tags|
    ensures forall i :: 0 <= i < |c.tags| ==> r.tags[i] == Tag(c.tags[i].tagType, c.tags[i].tagLabel)
  {
    ChatData(
      c.chat.id, c.chat.name, None,
      lastMessage, lastMessageTime, DefaultStatus, DefaultType, unreadCount,
      if |c.participants| > 0 then Truthy(c.participants[0].phone) else None,
      MapUsers(c.participants), TagsOf(c.tags))
  }

  /** `mapChat` with its default arguments: no last message, the current
      time, nothing unread. */
  function MapChatDefaults(c: ChatWithParticipants, now: Timestamp): (r: ChatData)
    ensures r.lastMessage == "No messages yet" && r.unreadCount == 0
    ensures r.lastMessageTime == now
    ensures r.id == c.chat.id && r.name == c.chat.name
  {
    MapChat(c, NoMessagesYet, now, 0)
  }
}

=== FILE: message_list.dfy ===
/** The message list of the open chat: messages grouped by their `date`
    label (in order of first appearance, each group in input order), the
    "show sender" header rule, the own-message rule and the read ticks.
    The grouping builds a JavaScript object keyed by date and reads its keys
    back in insertion order; date labels are never integer-like, so that
    order is the order in which the keys were created. */
module MessageList {
  import opened Common

  datatype Status = Sent | Delivered | Read

  /** A message as the list receives it. */
  datatype Message = Message(
    id: string, text: string, sender: string, senderName: string,
    time: string, date: string, status: Option<Status>,
    phone: Option<string>, forwardedFrom: Option<string>)

  datatype Group = Group(date: string, messages: seq<Message>)

  // ------------------------------------------------ reference definitions

  /** The distinct date labels, in order of first appearance. */
  function DateKeys(ms: seq<Message>): seq<string>
    decreases |ms|
  {
    if |ms| == 0 then []
    else
      var keys := DateKeys(ms[..|ms| - 1]);
      if ms[|ms| - 1].date in keys then keys else keys + [ms[|ms| - 1].date]
  }

  /** Each date label of the messages is a key exactly once, and every key
      is the date of some message. */
  lemma {:induction false} DateKeysFacts(ms: seq<Message>)
    ensures NoDuplicates(DateKeys(ms))
    ensures forall d :: d in DateKeys(ms) <==> exists i :: 0 <= i < |ms| && ms[i].date == d
    decreases |ms|
  {
    if |ms| > 0 {
      var front := ms[..|ms| - 1];
      DateKeysFacts(front);
      assert forall i :: 0 <= i < |front| ==> front[i] == ms[i];
    }
  }

  /** The messages carrying date label `d`, in input order. */
  function OnDate(ms: seq<Message>, d: string): seq<Message>
    decreases |ms|
  {
    if |ms| == 0 then []
    else if ms[0].date == d then [ms[0]] + OnDate(ms[1..], d)
    else OnDate(ms[1..], d)
  }

  /** `OnDate` keeps exactly the messages of the date, in input order. */
  lemma {:induction false} OnDateFacts(ms: seq<Message>, d: string)
    ensures forall m :: m in OnDate(ms, d) <==> m in ms && m.date == d
    ensures IsSubsequence(OnDate(ms, d), ms)
    decreases |ms|
  {
    if |ms| > 0 {
      OnDateFacts(ms[1..], d);
      var rest := OnDate(ms[1..], d);
      assert ms == [ms[0]] + ms[1..];
      if ms[0].date == d {
        assert ([ms[0]] + rest)[1..] == rest;
      } else {
        assert |rest| > 0 ==> rest[0] in rest;
      }
    }
  }

  lemma {:induction false} OnDateAppend(ms: seq<Message>, m: Message, d: string)
    ensures OnDate(ms + [m], d) == OnDate(ms, d) + (if m.date == d then [m] else [])
    decreases |ms|
  {
    if |ms| == 0 {
      assert [m][1..] == [];
    } else {
      assert (ms + [m])[1..] == ms[1..] + [m];
      OnDateAppend(ms[1..], m, d);
    }
  }

  lemma OnDateAppendAll(ms: seq<Message>, m: Message)
    ensures forall d :: OnDate(ms + [m], d) == OnDate(ms, d) + (if m.date == d then [m] else [])
  {
    forall d ensures OnDate(ms + [m], d) == OnDate(ms, d) + (if m.date == d then [m] else []) {
      OnDateAppend(ms, m, d);
    }
  }

  /** A date label that is not a key has no messages. */
  lemma AbsentDateHasNoMessages(ms: seq<Message>, d: string)
    ensures d !in DateKeys(ms) ==> OnDate(ms, d) == []
  {
    DateKeysFacts(ms);
    OnDateFacts(ms, d);
    if d !in DateKeys(ms) && OnDate(ms, d) != [] {
      assert OnDate(ms, d)[0] in OnDate(ms, d);
    }
  }

  /** The groups the list should show: one per date label, holding that
      date's messages. */
  function ByDate(ms: seq<Message>, keys: seq<string>): (gs: seq<Group>)
    ensures |gs| == |keys|
    ensures forall j :: 0 <= j < |keys| ==> gs[j] == Group(keys[j], OnDate(ms, keys[j]))
  {
    seq(|keys|, j requires 0 <= j < |keys| => Group(keys[j], OnDate(ms, keys[j])))
  }

  // ------------------------------------------------------------ grouping

  /** The object being built: its keys in creation order and its buckets. */
  datatype Grouping = Grouping(keys: seq<string>, buckets: map<string, seq<Message>>)

  /** One turn of the `forEach`: create the date's bucket if it is missing,
      then push the message onto it. */
  function Push(g: Grouping, m: Message): (r: Grouping)
    ensures forall d :: d in r.buckets <==> d in g.buckets || d == m.date
    ensures r.buckets[m.date] == (if m.date in g.buckets then g.buckets[m.date] else []) + [m]
    ensures forall d :: d in g.buckets && d != m.date ==> r.buckets[d] == g.buckets[d]
    ensures m.date in g.buckets ==> r.keys == g.keys
    ensures m.date !in g.buckets ==> r.keys == g.keys + [m.date]
  {
    if m.date in g.buckets then g.(buckets := g.buckets[m.date := g.buckets[m.date] + [m]])
    else Grouping(g.keys + [m.date], g.buckets[m.date := [m]])
  }

  /** The object after the `forEach` over `ms`. Its keys are the distinct
      dates in order of first appearance, and each bucket holds exactly that
      date's messages in input order. */
  function Accumulate(ms: seq<Message>): (g: Grouping)
    ensures g.keys == DateKeys(ms)
    ensures forall d :: d in g.buckets <==> d in g.keys
    ensures forall d :: d in g.buckets ==> g.buckets[d] == OnDate(ms, d)
    decreases |ms|
  {
    if |ms| == 0 then Grouping([], map[])
    else
      var front := ms[..|ms| - 1];
      var m := ms[|ms| - 1];
      assert ms == front + [m];
      var g := Accumulate(front);
      OnDateAppendAll(front, m);
      AbsentDateHasNoMessages(front, m.date);
      Push(g, m)
  }

  /** The groups in the order the list renders them. */
  function GroupByDate(ms: seq<Message>): (gs: seq<Group>)
    ensures gs == ByDate(ms, DateKeys(ms))
  {
    var g := Accumulate(ms);
    assert forall j :: 0 <= j < |g.keys| ==> g.keys[j] in g.buckets;
    var gs := seq(|g.keys|, j requires 0 <= j < |g.keys| => Group(g.keys[j], g.buckets[g.keys[j]]));
    var want := ByDate(ms, DateKeys(ms));
    assert |gs| == |want|;
    assert forall j :: 0 <= j < |gs| ==> gs[j] == want[j];
    gs
  }

  // ---------------------------------------------------------- properties

  /** Every message lands in exactly one group: the one keyed by its date. */
  lemma EveryMessageInExactlyOneGroup(ms: seq<Message>, m: Message)
    requires m in ms
    ensures exists j :: 0 <= j < |GroupByDate(ms)| && GroupByDate(ms)[j].date == m.date
                        && m in GroupByDate(ms)[j].messages
    ensures forall j :: 0 <= j < |GroupByDate(ms)| && m in GroupByDate(ms)[j].messages
                        ==> GroupByDate(ms)[j].date == m.date
    ensures forall j, k :: 0 <= j < k < |GroupByDate(ms)| ==> GroupByDate(ms)[j].date != GroupByDate(ms)[k].date
  {
    var gs := GroupByDate(ms);
    var keys := DateKeys(ms);
    DateKeysFacts(ms);
    assert |gs| == |keys|;
    OnDateFacts(ms, m.date);
    var i :| 0 <= i < |ms| && ms[i] == m;
    assert m.date in keys;
    var j :| 0 <= j < |keys| && keys[j] == m.date;
    assert gs[j] == Group(m.date, OnDate(ms, m.date));
    forall j' | 0 <= j' < |gs| && m in gs[j'].messages
      ensures gs[j'].date == m.date
    {
      assert gs[j'] == Group(keys[j'], OnDate(ms, keys[j']));
      OnDateFacts(ms, keys[j']);
    }
    forall j', k | 0 <= j' < k < |gs|
      ensures gs[j'].date != gs[k].date
    {
      assert gs[j'].date == keys[j'] && gs[k].date == keys[k];
    }
  }

  /** Every group keeps its messages in input order. */
  lemma GroupsKeepInputOrder(ms: seq<Message>)
    ensures forall j :: 0 <= j < |GroupByDate(ms)| ==> IsSubsequence(GroupByDate(ms)[j].messages, ms)
  {
    forall d { OnDateFacts(ms, d); }
  }

  /** Some message before position `i` carries date label `d`. */
  predicate SeenBefore(ms: seq<Message>, i: int, d: string) {
    exists i' :: 0 <= i' < i && i' < |ms| && ms[i'].date == d
  }

  /** Groups appear in order of the first appearance of their date: before
      any message of a later group there is a message of every earlier one. */
  lemma {:induction false} GroupsInFirstAppearanceOrder(ms: seq<Message>)
    ensures forall j, k, i :: 0 <= j < k < |DateKeys(ms)| && 0 <= i < |ms| && ms[i].date == DateKeys(ms)[k]
              ==> SeenBefore(ms, i, DateKeys(ms)[j])
    decreases |ms|
  {
    if |ms| > 0 {
      var front := ms[..|ms| - 1];
      var m := ms[|ms| - 1];
      assert ms == front + [m];
      GroupsInFirstAppearanceOrder(front);
      DateKeysFacts(front);
      forall j, k, i | 0 <= j < k < |DateKeys(ms)| && 0 <= i < |ms| && ms[i].date == DateKeys(ms)[k]
        ensures SeenBefore(ms, i, DateKeys(ms)[j])
      {
        FirstAppearanceStep(front, m, j, k, i);
      }
    }
  }

  /** One step of the induction above: the claim for `front + [m]` from the
      claim for `front`. */
  lemma FirstAppearanceStep(front: seq<Message>, m: Message, j: int, k: int, i: int)
    requires forall j, k, i :: 0 <= j < k < |DateKeys(front)| && 0 <= i < |front| && front[i].date == DateKeys(front)[k]
               ==> SeenBefore(front, i, DateKeys(front)[j])
    requires forall d :: d in DateKeys(front) <==> exists i :: 0 <= i < |front| && front[i].date == d
    requires NoDuplicates(DateKeys(front))
    requires 0 <= j < k < |DateKeys(front + [m])| && 0 <= i <= |front|
    requires (front + [m])[i].date == DateKeys(front + [m])[k]
    ensures SeenBefore(front + [m], i, DateKeys(front + [m])[j])
  {
    var ms := front + [m];
    assert ms[..|ms| - 1] == front;
    var keys := DateKeys(ms);
    var fkeys := DateKeys(front);
    if k < |fkeys| {
      assert keys[k] == fkeys[k] && keys[j] == fkeys[j];
      if i < |front| {
        assert front[i] == ms[i];
        var i' :| 0 <= i' < i && i' < |front| && front[i'].date == fkeys[j];
        assert ms[i'] == front[i'];
      } else {
        assert keys[k] in fkeys;
        var i0 :| 0 <= i0 < |front| && front[i0].date == keys[k];
        assert SeenBefore(front, i0, fkeys[j]);
        var i' :| 0 <= i' < i0 && i' < |front| && front[i'].date == fkeys[j];
        assert ms[i'] == front[i'];
      }
    } else {
      // keys[k] is the date first seen at the last message.
      assert keys == fkeys + [m.date] && keys[k] == m.date;
      assert keys[j] in fkeys;
      var i' :| 0 <= i' < |front| && front[i'].date == keys[j];
      assert ms[i'] == front[i'];
    }
  }

  function TotalSize(gs: seq<Group>): nat
    decreases |gs|
  {
    if |gs| == 0 then 0 else TotalSize(gs[..|gs| - 1]) + |gs[|gs| - 1].messages|
  }

  lemma {:induction false} TotalSizeAppendMessage(ms: seq<Message>, m: Message, keys: seq<string>)
    requires NoDuplicates(keys)
    ensures TotalSize(ByDate(ms + [m], keys)) == TotalSize(ByDate(ms, keys)) + (if m.date in keys then 1 else 0)
    decreases |keys|
  {
    if |keys| > 0 {
      var front := keys[..|keys| - 1];
      var k := keys[|keys| - 1];
      assert ByDate(ms + [m], keys)[..|keys| - 1] == ByDate(ms + [m], front);
      assert ByDate(ms, keys)[..|keys| - 1] == ByDate(ms, front);
      TotalSizeAppendMessage(ms, m, front);
      OnDateAppend(ms, m, k);
      assert keys == front + [k];
      assert m.date in keys <==> m.date in front || m.date == k;
      assert k !in front;
    }
  }

  lemma TotalSizeAppendKey(ms: seq<Message>, keys: seq<string>, d: string)
    ensures TotalSize(ByDate(ms, keys + [d])) == TotalSize(ByDate(ms, keys)) + |OnDate(ms, d)|
  {
    var gs := ByDate(ms, keys + [d]);
    assert gs[..|keys|] == ByDate(ms, keys);
  }

  lemma {:induction false} SizesOfKeys(ms: seq<Message>)
    ensures TotalSize(ByDate(ms, DateKeys(ms))) == |ms|
    decreases |ms|
  {
    if |ms| > 0 {
      var front := ms[..|ms| - 1];
      var m := ms[|ms| - 1];
      assert ms == front + [m];
      SizesOfKeys(front);
      DateKeysFacts(front);
      var fkeys := DateKeys(front);
      TotalSizeAppendMessage(front, m, fkeys);
      if m.date !in fkeys {
        assert DateKeys(ms) == fkeys + [m.date];
        TotalSizeAppendKey(ms, fkeys, m.date);
        OnDateAppend(front, m, m.date);
        AbsentDateHasNoMessages(front, m.date);
      }
    }
  }

  /** The group sizes add up to the number of messages. */
  lemma GroupSizesSum(ms: seq<Message>)
    ensures TotalSize(GroupByDate(ms)) == |ms|
  {
    SizesOfKeys(ms);
  }

  function Flatten(gs: seq<Group>): seq<Message>
    decreases |gs|
  {
    if |gs| == 0 then [] else Flatten(gs[..|gs| - 1]) + gs[|gs| - 1].messages
  }

  /** Messages that share a date are adjacent. */
  predicate ContiguousByDate(ms: seq<Message>) {
    forall i, j, k :: 0 <= i < j < k < |ms| && ms[i].date == ms[k].date ==> ms[j].date == ms[i].date
  }

  /** Dropping the last message keeps the dates contiguous. */
  lemma ContiguousFront(ms: seq<Message>)
    requires |ms| > 0 && ContiguousByDate(ms)
    ensures ContiguousByDate(ms[..|ms| - 1])
  {
    var front := ms[..|ms| - 1];
    forall a, b, c | 0 <= a < b < c < |front| && front[a].date == front[c].date
      ensures front[b].date == front[a].date
    {
      assert ms[a] == front[a] && ms[b] == front[b] && ms[c] == front[c];
    }
  }

  /** In a date-contiguous list the newest date label is the last message's. */
  lemma {:induction false} LastKeyIsLastDate(ms: seq<Message>)
    requires |ms| > 0 && ContiguousByDate(ms)
    ensures |DateKeys(ms)| > 0 && DateKeys(ms)[|DateKeys(ms)| - 1] == ms[|ms| - 1].date
    decreases |ms|
  {
    var front := ms[..|ms| - 1];
    var m := ms[|ms| - 1];
    var fkeys := DateKeys(front);
    DateKeysFacts(front);
    if m.date in fkeys {
      var i :| 0 <= i < |front| && front[i].date == m.date;
      assert ms[i].date == m.date;
      assert |front| > 0;
      assert ms[|ms| - 2].date == m.date;
      ContiguousFront(ms);
      LastKeyIsLastDate(front);
      assert front[|front| - 1] == ms[|ms| - 2];
    }
  }

  lemma {:induction false} FlattenAppendAbsent(ms: seq<Message>, m: Message, keys: seq<string>)
    requires m.date !in keys
    ensures Flatten(ByDate(ms + [m], keys)) == Flatten(ByDate(ms, keys))
    decreases |keys|
  {
    if |keys| > 0 {
      var front := keys[..|keys| - 1];
      assert ByDate(ms + [m], keys)[..|keys| - 1] == ByDate(ms + [m], front);
      assert ByDate(ms, keys)[..|keys| - 1] == ByDate(ms, front);
      assert keys[|keys| - 1] != m.date;
      assert forall d :: d in front ==> d in keys;
      FlattenAppendAbsent(ms, m, front);
      OnDateAppend(ms, m, keys[|keys| - 1]);
    }
  }

  /** Appending a message whose date is the newest key extends the last group. */
  lemma FlattenStepKnownDate(front: seq<Message>, m: Message, fkeys: seq<string>)
    requires NoDuplicates(fkeys)
    requires |fkeys| > 0 && fkeys[|fkeys| - 1] == m.date
    ensures Flatten(ByDate(front + [m], fkeys)) == Flatten(ByDate(front, fkeys)) + [m]
  {
    var ms := front + [m];
    var n := |fkeys|;
    var init := fkeys[..n - 1];
    assert fkeys == init + [m.date];
    assert m.date !in init;
    var gs, fgs := ByDate(ms, fkeys), ByDate(front, fkeys);
    assert gs[..n - 1] == ByDate(ms, init);
    assert fgs[..n - 1] == ByDate(front, init);
    assert Flatten(gs) == Flatten(ByDate(ms, init)) + OnDate(ms, m.date);
    assert Flatten(fgs) == Flatten(ByDate(front, init)) + OnDate(front, m.date);
    FlattenAppendAbsent(front, m, init);
    OnDateAppend(front, m, m.date);
  }

  /** Appending a message with a new date adds a one-message group. */
  lemma FlattenStepNewDate(front: seq<Message>, m: Message)
    requires m.date !in DateKeys(front)
    ensures Flatten(ByDate(front + [m], DateKeys(front) + [m.date])) == Flatten(ByDate(front, DateKeys(front))) + [m]
  {
    var fkeys := DateKeys(front);
    var ms := front + [m];
    var keys := fkeys + [m.date];
    var gs := ByDate(ms, keys);
    assert gs[..|fkeys|] == ByDate(ms, fkeys);
    assert Flatten(gs) == Flatten(ByDate(ms, fkeys)) + OnDate(ms, m.date);
    FlattenAppendAbsent(front, m, fkeys);
    OnDateAppend(front, m, m.date);
    AbsentDateHasNoMessages(front, m.date);
  }

  lemma {:induction false} ContiguousFlattenKeys(ms: seq<Message>)
    requires ContiguousByDate(ms)
    ensures Flatten(ByDate(ms, DateKeys(ms))) == ms
    decreases |ms|
  {
    if |ms| > 0 {
      var front := ms[..|ms| - 1];
      var m := ms[|ms| - 1];
      assert ms == front + [m];
      ContiguousFront(ms);
      ContiguousFlattenKeys(front);
      if m.date in DateKeys(front) {
        DateKeysFacts(front);
        LastKeyIsLastDate(ms);
        FlattenStepKnownDate(front, m, DateKeys(front));
      } else {
        FlattenStepNewDate(front, m);
      }
    }
  }

  /** When the input is contiguous by date, the groups laid end to end give
      back the input. */
  lemma ContiguousFlattenIsIdentity(ms: seq<Message>)
    requires ContiguousByDate(ms)
    ensures Flatten(GroupByDate(ms)) == ms
  {
    ContiguousFlattenKeys(ms);
  }

  // ---------------------------------------------------- per-message flags

  /** A message is the viewer's own when its sender is "me". */
  predicate IsOwnMessage(m: Message) {
    m.sender == "me"
  }

  /** The sender header rule inside one group: the first message, and any
      message whose sender differs from the one before it. */
  function ShowSender(group: seq<Message>, i: nat): (show: bool)
    requires i < |group|
    ensures i == 0 ==> show
    ensures i > 0 ==> (show <==> group[i - 1].sender != group[i].sender)
  {
    i == 0 || group[i - 1].sender != group[i].sender
  }

  /** Between two headers the sender does not change: a stretch without
      headers after position `a` all comes from `group[a]`'s sender. */
  lemma {:induction false} HeadersStartSenderRuns(group: seq<Message>, a: nat, b: nat)
    requires a <= b < |group|
    requires forall i :: a < i <= b ==> !ShowSender(group, i)
    ensures forall i :: a <= i <= b ==> group[i].sender == group[a].sender
    decreases b - a
  {
    if a < b {
      assert !ShowSender(group, b);
      HeadersStartSenderRuns(group, a, b - 1);
    }
  }

  datatype Tick = NoTick | SingleTick | DoubleTick

  /** Own messages show a double tick once read and a single tick before;
      other people's messages show none. */
  function TickFor(m: Message): (t: Tick)
    ensures t == DoubleTick <==> IsOwnMessage(m) && m.status == Some(Read)
    ensures t == SingleTick <==> IsOwnMessage(m) && m.status != Some(Read)
    ensures t == NoTick <==> !IsOwnMessage(m)
  {
    if !IsOwnMessage(m) then NoTick else if m.status == Some(Read) then DoubleTick else SingleTick
  }

  // ------------------------------------------------------------ rendering

  datatype Item = Item(message: Message, isOwn: bool, showSender: bool, header: bool, tick: Tick)
  datatype Day = Day(date: string, items: seq<Item>)
  datatype View = Placeholder | Timeline(days: seq<Day>)

  function ItemsOf(group: seq<Message>): (items: seq<Item>)
    ensures |items| == |group|
    ensures forall i :: 0 <= i < |group| ==>
              && items[i].message == group[i]
              && items[i].showSender == ShowSender(group, i)
              && (items[i].header <==> ShowSender(group, i) && !IsOwnMessage(group[i]))
              && items[i].tick == TickFor(group[i])
  {
    seq(|group|, i requires 0 <= i < |group| =>
      Item(group[i], IsOwnMessage(group[i]), ShowSender(group, i),
           ShowSender(group, i) && !IsOwnMessage(group[i]), TickFor(group[i])))
  }

  lemma NonEmptyHasDays(ms: seq<Message>)
    requires |ms| > 0
    ensures |DateKeys(ms)| > 0
  {
    DateKeysFacts(ms);
    assert ms[0].date in DateKeys(ms);
  }

  /** `MessageList`: a missing or empty list shows the "No messages yet"
      placeholder; otherwise one day section per date label, in order of
      first appearance, listing that date's messages with their flags. */
  function Render(messages: Option<seq<Message>>): (v: View)
    ensures v.Placeholder? <==> messages.None? || |messages.value| == 0
    ensures v.Timeline? ==> |v.days| == |DateKeys(messages.value)| > 0
    ensures v.Timeline? ==> forall j :: 0 <= j < |v.days| ==>
              v.days[j] == Day(DateKeys(messages.value)[j], ItemsOf(OnDate(messages.value, DateKeys(messages.value)[j])))
  {
    if messages.None? || |messages.value| == 0 then Placeholder
    else
      var gs := GroupByDate(messages.value);
      NonEmptyHasDays(messages.value);
      Timeline(seq(|gs|, j requires 0 <= j < |gs| => Day(gs[j].date, ItemsOf(gs[j].messages))))
  }

  // ------------------------------------------------------------ an example

  predicate AllOnDate(ms: seq<Message>, d: string) {
    forall i :: 0 <= i < |ms| ==> ms[i].date == d
  }

  lemma {:induction false} OnDateConcat(a: seq<Message>, b: seq<Message>, d: string)
    ensures OnDate(a + b, d) == OnDate(a, d) + OnDate(b, d)
    decreases |a|
  {
    if |a| > 0 {
      assert (a + b)[1..] == a[1..] + b;
      OnDateConcat(a[1..], b, d);
    } else {
      assert a + b == b;
    }
  }

  lemma OnDateOfRun(a: seq<Message>, d: string, e: string)
    requires AllOnDate(a, d)
    ensures OnDate(a, d) == a
    ensures e != d ==> OnDate(a, e) == []
    decreases |a|
  {
    if |a| > 0 {
      OnDateOfRun(a[1..], d, e);
    }
    if e != d && OnDate(a, e) != [] {
      OnDateFacts(a, e);
      assert OnDate(a, e)[0] in OnDate(a, e);
    }
  }

  /** One more message adds its date as a key exactly when it is new. */
  lemma DateKeysSnoc(front: seq<Message>, m: Message)
    ensures DateKeys(front + [m])
            == if m.date in DateKeys(front) then DateKeys(front) else DateKeys(front) + [m.date]
  {
    var ms := front + [m];
    assert ms[..|ms| - 1] == front && ms[|ms| - 1] == m;
  }

  /** After a run of date `d1`, a run of date `d2` adds exactly one key. */
  lemma {:induction false} RunKeys(a: seq<Message>, b: seq<Message>, d1: string, d2: string)
    requires DateKeys(a) == [d1] && AllOnDate(b, d2) && |b| > 0
    ensures DateKeys(a + b) == if d1 == d2 then [d1] else [d1, d2]
    decreases |b|
  {
    var bf := b[..|b| - 1];
    var x := b[|b| - 1];
    assert x.date == d2;
    assert a + b == (a + bf) + [x];
    DateKeysSnoc(a + bf, x);
    if |b| == 1 {
      assert a + bf == a;
    } else {
      assert AllOnDate(bf, d2) by {
        forall i | 0 <= i < |bf| ensures bf[i].date == d2 {
          assert bf[i] == b[i];
        }
      }
      RunKeys(a, bf, d1, d2);
    }
  }

  lemma TwoRunsKeys(a: seq<Message>, b: seq<Message>, d1: string, d2: string)
    requires |a| > 0 && |b| > 0 && d1 != d2 && AllOnDate(a, d1) && AllOnDate(b, d2)
    ensures DateKeys(a + b) == [d1, d2]
  {
    var first := a[..1];
    assert DateKeys(first) == [d1] by {
      assert first[..0] == [];
    }
    if |a| > 1 {
      assert a == first + a[1..];
      assert AllOnDate(a[1..], d1) by {
        forall i | 0 <= i < |a| - 1 ensures a[1..][i].date == d1 {
          assert a[1..][i] == a[i + 1];
        }
      }
      RunKeys(first, a[1..], d1, d1);
    } else {
      assert a == first;
    }
    RunKeys(a, b, d1, d2);
  }

  /** Two non-empty runs of distinct dates give exactly those two days, in
      order. */
  lemma TwoRunsTwoDays(a: seq<Message>, b: seq<Message>, d1: string, d2: string)
    requires |a| > 0 && |b| > 0 && d1 != d2 && AllOnDate(a, d1) && AllOnDate(b, d2)
    ensures DateKeys(a + b) == [d1, d2]
    ensures OnDate(a + b, d1) == a && OnDate(a + b, d2) == b
  {
    TwoRunsKeys(a, b, d1, d2);
    OnDateConcat(a, b, d1);
    OnDateConcat(a, b, d2);
    OnDateOfRun(a, d1, d2);
    OnDateOfRun(b, d2, d1);
  }

  function Sample(id: string, sender: string, date: string, status: Option<Status>): Message {
    Message(id, "", sender, "", "", date, status, None, None)
  }

  function DemoFirstDay(): seq<Message> {
    [Sample("1", "other", "22-01-2025", None), Sample("2", "other", "22-01-2025", None),
     Sample("3", "me", "22-01-2025", Some(Read))]
  }

  function DemoSecondDay(): seq<Message> {
    [Sample("4", "other", "23-01-2025", None), Sample("5", "other", "23-01-2025", None),
     Sample("6", "me", "23-01-2025", Some(Read)), Sample("7", "other", "23-01-2025", None),
     Sample("8", "me", "23-01-2025", Some(Read))]
  }

  /** The demo conversation renders as two days of three and five messages;
      on the second day the sender header shows at the first message and at
      each change of sender, and own messages carry a double tick. */
  lemma DemoConversationRendersTwoDays()
    ensures var ms := DemoFirstDay() + DemoSecondDay();
            && DateKeys(ms) == ["22-01-2025", "23-01-2025"]
            && OnDate(ms, "22-01-2025") == DemoFirstDay() && OnDate(ms, "23-01-2025") == DemoSecondDay()
            && ShowSender(DemoSecondDay(), 0) && !ShowSender(DemoSecondDay(), 1)
            && ShowSender(DemoSecondDay(), 2) && ShowSender(DemoSecondDay(), 3)
            && TickFor(ms[7]) == DoubleTick && TickFor(ms[6]) == NoTick
  {
    TwoRunsTwoDays(DemoFirstDay(), DemoSecondDay(), "22-01-2025", "23-01-2025");
  }
}

=== FILE: new_chat_modal.dfy ===
/** The state of the "Create New Chat" dialog: the users to pick from and
    the search filter over them, the selection, the chat name and group
    flag, and the tag editor. Each handler is a transition on that state;
    the filter effect is applied as part of the transition that triggers it. */
module NewChatModal {
  import opened Common
  import opened Schema

  datatype PredefinedTag = PredefinedTag(tagType: string, tagLabel: string, bgClass: string, textClass: string)

  const PredefinedTags: seq<PredefinedTag> := [
    PredefinedTag("demo", "Demo", "bg-orange-50", "text-orange-600"),
    PredefinedTag("internal", "Internal", "bg-green-50", "text-green-600"),
    PredefinedTag("signup", "Signup", "bg-blue-50", "text-blue-600"),
    PredefinedTag("content", "Content", "bg-purple-50", "text-purple-600")
  ]

  const DefaultTagType := "demo"

  datatype ModalState = ModalState(
    users: seq<UserRow>,
    filteredUsers: seq<UserRow>,
    selectedUsers: seq<UserRow>,
    searchQuery: string,
    chatName: string,
    isGroup: bool,
    isCreating: bool,
    selectedTags: seq<Tag>,
    showAddTagForm: bool,
    newTagType: string,
    customTagLabel: string)

  /** The state the dialog starts in: every `useState` initial value. */
  function Initial(): ModalState {
    ModalState([], [], [], "", "", false, false, [], false, DefaultTagType, "")
  }

  // ---------------------------------------------------------------- users

  /** The user list: every user row except the signed-in user's. */
  function OtherUsers(rows: seq<UserRow>, current: Option<Id>): (r: seq<UserRow>)
    ensures forall u :: u in r <==> u in rows && (current.None? || u.id != current.value)
    ensures IsSubsequence(r, rows)
    decreases |rows|
  {
    if |rows| == 0 then []
    else
      var rest := OtherUsers(rows[1..], current);
      assert rows == [rows[0]] + rows[1..];
      if current.None? || rows[0].id != current.value then
        assert ([rows[0]] + rest)[1..] == rest;
        [rows[0]] + rest
      else
        assert |rest| > 0 ==> rest[0] != rows[0];
        rest
  }

  /** The search rule: the lower-cased query occurs in the lower-cased full
      name, or in the lower-cased email when there is one. */
  predicate MatchesQuery(u: UserRow, query: string) {
    Contains(Lower(u.fullName), Lower(query))
    || (u.email != "" && Contains(Lower(u.email), Lower(query)))
  }

  function UsersMatching(users: seq<UserRow>, query: string): (r: seq<UserRow>)
    ensures forall u :: u in r <==> u in users && MatchesQuery(u, query)
    ensures IsSubsequence(r, users)
    decreases |users|
  {
    if |users| == 0 then []
    else
      var rest := UsersMatching(users[1..], query);
      assert users == [users[0]] + users[1..];
      if MatchesQuery(users[0], query) then
        assert ([users[0]] + rest)[1..] == rest;
        [users[0]] + rest
      else
        assert |rest| > 0 ==> rest[0] != users[0];
        rest
  }

  /** The search effect: an empty query shows every user; otherwise the
      matching users, in list order. */
  function FilterUsers(users: seq<UserRow>, query: string): (r: seq<UserRow>)
    ensures query == "" ==> r == users
    ensures query != "" ==> forall u :: u in r <==> u in users && MatchesQuery(u, query)
    ensures IsSubsequence(r, users)
  {
    if query == "" then
      SubsequenceOfItself(users);
      users
    else UsersMatching(users, query)
  }

  /** The users arrive: after a successful read the list is every other
      user, and the filter effect runs again over it; a failed read changes
      nothing. */
  function LoadUsers(s: ModalState, rows: seq<UserRow>, current: Option<Id>, readOk: bool): (r: ModalState)
    ensures !readOk ==> r == s
    ensures readOk ==> r.users == OtherUsers(rows, current)
    ensures readOk ==> r.filteredUsers == FilterUsers(r.users, s.searchQuery)
    ensures r == s.(users := r.users, filteredUsers := r.filteredUsers)
  {
    if !readOk then s
    else
      var others := OtherUsers(rows, current);
      s.(users := others, filteredUsers := FilterUsers(others, s.searchQuery))
  }

  /** Typing in the search box. */
  function SetSearchQuery(s: ModalState, query: string): (r: ModalState)
    ensures r.searchQuery == query && r.filteredUsers == FilterUsers(s.users, query)
    ensures r == s.(searchQuery := query, filteredUsers := r.filteredUsers)
  {
    s.(searchQuery := query, filteredUsers := FilterUsers(s.users, query))
  }

  // ------------------------------------------------------------ selection

  predicate IsSelected(selected: seq<UserRow>, id: Id) {
    exists v :: v in selected && v.id == id
  }

  predicate NoDuplicateIds(users: seq<UserRow>) {
    forall i, j :: 0 <= i < j < |users| ==> users[i].id != users[j].id
  }

  /** `selected.filter(u => u.id !== id)`. */
  function WithoutId(selected: seq<UserRow>, id: Id): (r: seq<UserRow>)
    ensures forall v :: v in r <==> v in selected && v.id != id
    ensures IsSubsequence(r, selected)
    ensures |r| <= |selected|
    decreases |selected|
  {
    if |selected| == 0 then []
    else
      var rest := WithoutId(selected[1..], id);
      assert selected == [selected[0]] + selected[1..];
      if selected[0].id == id then
        assert |rest| > 0 ==> rest[0] != selected[0];
        rest
      else
        assert ([selected[0]] + rest)[1..] == rest;
        [selected[0]] + rest
  }

  /** Filtering by id keeps every other user as often as it was selected. */
  lemma {:induction false} WithoutIdCounts(selected: seq<UserRow>, id: Id)
    ensures forall v :: multiset(WithoutId(selected, id))[v]
                        == if v.id == id then 0 else multiset(selected)[v]
    decreases |selected|
  {
    if |selected| > 0 {
      var tail := selected[1..];
      assert selected == [selected[0]] + tail;
      WithoutIdCounts(tail, id);
      assert multiset(selected) == multiset([selected[0]]) + multiset(tail);
      if selected[0].id != id {
        var r := WithoutId(selected, id);
        assert r == [selected[0]] + WithoutId(tail, id);
        assert multiset(r) == multiset([selected[0]]) + multiset(WithoutId(tail, id));
      }
    }
  }

  /** Filtering by id keeps distinct ids distinct. */
  lemma {:induction false} WithoutIdKeepsDistinctIds(selected: seq<UserRow>, id: Id)
    ensures NoDuplicateIds(selected) ==> NoDuplicateIds(WithoutId(selected, id))
    decreases |selected|
  {
    if |selected| > 0 && NoDuplicateIds(selected) {
      var tail := selected[1..];
      assert NoDuplicateIds(tail) by {
        forall i, j | 0 <= i < j < |tail| ensures tail[i].id != tail[j].id {
          assert tail[i] == selected[i + 1] && tail[j] == selected[j + 1];
        }
      }
      WithoutIdKeepsDistinctIds(tail, id);
      var rest := WithoutId(tail, id);
      if selected[0].id != id {
        assert WithoutId(selected, id) == [selected[0]] + rest;
        forall k | 0 <= k < |rest| ensures rest[k].id != selected[0].id {
          assert rest[k] in rest;
          var p :| 0 <= p < |tail| && tail[p] == rest[k];
          assert tail[p] == selected[p + 1];
        }
      }
    }
  }

  /** `toggleUserSelection`: a selected user (matched by id) is removed, an
      unselected one appended. Picking a second user while the chat is not
      marked as a group turns it into a group named after both users. */
  function ToggleUserSelection(s: ModalState, u: UserRow): (r: ModalState)
    ensures IsSelected(r.selectedUsers, u.id) <==> !IsSelected(s.selectedUsers, u.id)
    ensures NoDuplicateIds(s.selectedUsers) ==> NoDuplicateIds(r.selectedUsers)
    ensures IsSelected(s.selectedUsers, u.id) ==>
              && (forall v :: v in r.selectedUsers <==> v in s.selectedUsers && v.id != u.id)
              && IsSubsequence(r.selectedUsers, s.selectedUsers)
              && r.isGroup == s.isGroup && r.chatName == s.chatName
    ensures !IsSelected(s.selectedUsers, u.id) ==> r.selectedUsers == s.selectedUsers + [u]
    ensures !IsSelected(s.selectedUsers, u.id) && !s.isGroup && |s.selectedUsers| == 1 ==>
              r.isGroup && r.chatName == s.selectedUsers[0].fullName + ", " + u.fullName
    ensures IsSelected(s.selectedUsers, u.id) || s.isGroup || |s.selectedUsers| != 1 ==>
              r.isGroup == s.isGroup && r.chatName == s.chatName
    ensures r == s.(selectedUsers := r.selectedUsers, isGroup := r.isGroup, chatName := r.chatName)
  {
    if IsSelected(s.selectedUsers, u.id) then
      WithoutIdKeepsDistinctIds(s.selectedUsers, u.id);
      s.(selectedUsers := WithoutId(s.selectedUsers, u.id))
    else
      var appended := s.(selectedUsers := s.selectedUsers + [u]);
      assert forall v :: v in s.selectedUsers + [u] ==> v in s.selectedUsers || v == u;
      if !s.isGroup && |s.selectedUsers| == 1 then
        appended.(isGroup := true, chatName := s.selectedUsers[0].fullName + ", " + u.fullName)
      else appended
  }

  lemma NotSelectedInTail(selected: seq<UserRow>, id: Id)
    requires |selected| > 0 && !IsSelected(selected, id)
    ensures selected[0].id != id && !IsSelected(selected[1..], id)
  {
    assert selected[0] in selected;
    forall v | v in selected[1..] ensures v.id != id {
      assert v in selected;
    }
  }

  /** Removing a user nobody selected changes nothing. */
  lemma {:induction false} WithoutAbsentId(selected: seq<UserRow>, id: Id)
    requires !IsSelected(selected, id)
    ensures WithoutId(selected, id) == selected
    decreases |selected|
  {
    if |selected| > 0 {
      NotSelectedInTail(selected, id);
      WithoutAbsentId(selected[1..], id);
      assert WithoutId(selected, id) == [selected[0]] + WithoutId(selected[1..], id);
      assert selected == [selected[0]] + selected[1..];
    }
  }

  /** Picking an unselected user and then unpicking them restores the selection. */
  lemma ToggleTwiceRestoresSelection(s: ModalState, u: UserRow)
    requires !IsSelected(s.selectedUsers, u.id)
    ensures ToggleUserSelection(ToggleUserSelection(s, u), u).selectedUsers == s.selectedUsers
  {
    var s1 := ToggleUserSelection(s, u);
    assert s1.selectedUsers == s.selectedUsers + [u];
    assert IsSelected(s1.selectedUsers, u.id);
    WithoutAppendedId(s.selectedUsers, u);
  }

  lemma {:induction false} WithoutAppendedId(selected: seq<UserRow>, u: UserRow)
    requires !IsSelected(selected, u.id)
    ensures WithoutId(selected + [u], u.id) == selected
    decreases |selected|
  {
    var xs := selected + [u];
    if |selected| == 0 {
      assert xs == [u] && xs[1..] == [];
      assert WithoutId(xs, u.id) == WithoutId(xs[1..], u.id);
    } else {
      NotSelectedInTail(selected, u.id);
      assert xs[0] == selected[0];
      assert xs[1..] == selected[1..] + [u];
      WithoutAppendedId(selected[1..], u);
      assert WithoutId(xs, u.id) == [xs[0]] + WithoutId(xs[1..], u.id);
      assert selected == [selected[0]] + selected[1..];
    }
  }

  /** The "Direct" and "Group" radio buttons. Leaving group mode with a
      selection enables Create unless a create is in progress. */
  function SetIsGroup(s: ModalState, isGroup: bool): (r: ModalState)
    ensures r.isGroup == isGroup && r.(isGroup := s.isGroup) == s
    ensures !isGroup && |s.selectedUsers| > 0 && !s.isCreating ==> !CreateDisabled(r)
    ensures isGroup && s.chatName == "" ==> CreateDisabled(r)
  {
    s.(isGroup := isGroup)
  }

  /** The group-name input. A non-empty name with a selection enables Create
      unless a create is in progress. */
  function SetChatName(s: ModalState, name: string): (r: ModalState)
    ensures r.chatName == name && r.(chatName := s.chatName) == s
    ensures name != "" && |s.selectedUsers| > 0 && !s.isCreating ==> !CreateDisabled(r)
    ensures name == "" && s.isGroup ==> CreateDisabled(r)
  {
    s.(chatName := name)
  }

  // ----------------------------------------------------------------- tags

  /** The first predefined tag of the given type. */
  function FindPredefined(tagType: string): (r: Option<PredefinedTag>)
    ensures r.Some? ==> r.value in PredefinedTags && r.value.tagType == tagType
    ensures r.None? <==> forall p :: p in PredefinedTags ==> p.tagType != tagType
  {
    if tagType == "demo" then Some(PredefinedTags[0])
    else if tagType == "internal" then Some(PredefinedTags[1])
    else if tagType == "signup" then Some(PredefinedTags[2])
    else if tagType == "content" then Some(PredefinedTags[3])
    else None
  }

  /** The label a new tag gets: the custom label if one was typed, else the
      predefined label of its type, else the type itself. */
  function TagLabelFor(tagType: string, customLabel: string): (r: string)
    ensures customLabel != "" ==> r == customLabel
    ensures customLabel == "" && FindPredefined(tagType).Some? ==> r == FindPredefined(tagType).value.tagLabel
    ensures customLabel == "" && FindPredefined(tagType).None? ==> r == tagType
  {
    if customLabel != "" then customLabel
    else if FindPredefined(tagType).Some? then OrElse(FindPredefined(tagType).value.tagLabel, tagType)
    else tagType
  }

  /** `addTag`: the tag built from the form joins the selection unless an
      equal (type, label) pair is already there; the form closes and resets. */
  function AddTag(s: ModalState): (r: ModalState)
    ensures Tag(s.newTagType, TagLabelFor(s.newTagType, s.customTagLabel)) in r.selectedTags
    ensures Tag(s.newTagType, TagLabelFor(s.newTagType, s.customTagLabel)) in s.selectedTags
            ==> r.selectedTags == s.selectedTags
    ensures Tag(s.newTagType, TagLabelFor(s.newTagType, s.customTagLabel)) !in s.selectedTags
            ==> r.selectedTags == s.selectedTags + [Tag(s.newTagType, TagLabelFor(s.newTagType, s.customTagLabel))]
    ensures NoDuplicates(s.selectedTags) ==> NoDuplicates(r.selectedTags)
    ensures !r.showAddTagForm && r.newTagType == "demo" && r.customTagLabel == ""
    ensures r == s.(selectedTags := r.selectedTags, showAddTagForm := false,
                    newTagType := "demo", customTagLabel := "")
  {
    var tag := Tag(s.newTagType, TagLabelFor(s.newTagType, s.customTagLabel));
    var tags := if tag in s.selectedTags then s.selectedTags else s.selectedTags + [tag];
    s.(selectedTags := tags, showAddTagForm := false, newTagType := DefaultTagType, customTagLabel := "")
  }

  /** `removeTag`: every entry with the same (type, label) goes, the rest
      stay in order. */
  function RemoveTag(s: ModalState, t: Tag): (r: ModalState)
    ensures t !in r.selectedTags
    ensures forall x :: x in r.selectedTags <==> x in s.selectedTags && x != t
    ensures forall x :: multiset(r.selectedTags)[x] == if x == t then 0 else multiset(s.selectedTags)[x]
    ensures IsSubsequence(r.selectedTags, s.selectedTags)
    ensures NoDuplicates(s.selectedTags) ==> NoDuplicates(r.selectedTags)
    ensures r == s.(selectedTags := r.selectedTags)
  {
    RemoveAllKeepsNoDuplicates(s.selectedTags, t);
    s.(selectedTags := RemoveAll(s.selectedTags, t))
  }

  /** `getTagClasses`: the predefined colours of a known type, grey otherwise. */
  function TagClasses(tagType: string): (r: (string, string))
    ensures FindPredefined(tagType).Some? ==>
              r == (FindPredefined(tagType).value.bgClass, FindPredefined(tagType).value.textClass)
    ensures FindPredefined(tagType).None? ==> r == ("bg-gray-50", "text-gray-600")
  {
    var p := FindPredefined(tagType);
    (if p.Some? then OrElse(p.value.bgClass, "bg-gray-50") else "bg-gray-50",
     if p.Some? then OrElse(p.value.textClass, "text-gray-600") else "text-gray-600")
  }

  // --------------------------------------------------------------- create

  /** The arguments `handleCreateChat` passes to `createChat`. */
  datatype CreateRequest = CreateRequest(name: string, isGroup: bool, participantIds: seq<Id>, tags: seq<Tag>)

  function FullNames(users: seq<UserRow>): (r: seq<string>)
    ensures |r| == |users| && forall i :: 0 <= i < |users| ==> r[i] == users[i].fullName
  {
    seq(|users|, i requires 0 <= i < |users| => users[i].fullName)
  }

  /** `handleCreateChat` up to the service call: nothing without a
      selection; otherwise the sole user's name, the typed group name, or
      the joined names, and the selected ids in selection order. */
  function BuildCreateRequest(s: ModalState): (r: Option<CreateRequest>)
    ensures r.None? <==> |s.selectedUsers| == 0
    ensures r.Some? ==> |r.value.participantIds| == |s.selectedUsers|
                        && forall i :: 0 <= i < |s.selectedUsers| ==> r.value.participantIds[i] == s.selectedUsers[i].id
    ensures r.Some? && |s.selectedUsers| == 1 ==> r.value.name == s.selectedUsers[0].fullName
    ensures r.Some? && |s.selectedUsers| > 1 && s.isGroup ==> r.value.name == s.chatName
    ensures r.Some? && |s.selectedUsers| > 1 && !s.isGroup ==>
              r.value.name == s.selectedUsers[0].fullName + ", " + Join(FullNames(s.selectedUsers[1..]), ", ")
    ensures r.Some? ==> r.value.isGroup == s.isGroup && r.value.tags == s.selectedTags
  {
    var sel := s.selectedUsers;
    if |sel| == 0 then None
    else
      var name := if |sel| == 1 then sel[0].fullName
                  else if s.isGroup then s.chatName
                  else Join(FullNames(sel), ", ");
      assert |sel| > 1 ==> FullNames(sel)[1..] == FullNames(sel[1..]);
      Some(CreateRequest(name, s.isGroup, seq(|sel|, i requires 0 <= i < |sel| => sel[i].id), s.selectedTags))
  }

  /** Pressing Create: the request, if any, and the state with the create in
      progress. */
  function StartCreate(s: ModalState): (r: (Option<CreateRequest>, ModalState))
    ensures r.0 == BuildCreateRequest(s)
    ensures |s.selectedUsers| == 0 ==> r.1 == s
    ensures |s.selectedUsers| > 0 ==> r.1 == s.(isCreating := true)
  {
    if |s.selectedUsers| == 0 then (None, s) else (BuildCreateRequest(s), s.(isCreating := true))
  }

  /** `resetForm` (the search effect then shows every user again). */
  function ResetForm(s: ModalState): (r: ModalState)
    ensures r.selectedUsers == [] && r.selectedTags == [] && r.searchQuery == "" && r.chatName == ""
    ensures !r.isGroup && !r.showAddTagForm && r.newTagType == "demo" && r.customTagLabel == ""
    ensures r.users == s.users && r.filteredUsers == s.users && r.isCreating == s.isCreating
    ensures r == Initial().(users := s.users, filteredUsers := s.users, isCreating := s.isCreating)
  {
    s.(selectedUsers := [], searchQuery := "", filteredUsers := s.users, chatName := "",
       isGroup := false, selectedTags := [], showAddTagForm := false,
       newTagType := DefaultTagType, customTagLabel := "")
  }

  /** After the service call: a created chat resets the form, which leaves
      the dialog as it started apart from the loaded users, all of them
      shown; either way the create is no longer in progress. */
  function FinishCreate(s: ModalState, created: bool): (r: ModalState)
    ensures !r.isCreating
    ensures created ==> r.selectedUsers == [] && r.selectedTags == [] && !r.isGroup
    ensures created ==> r == Initial().(users := s.users, filteredUsers := s.users)
    ensures !created ==> r == s.(isCreating := false)
  {
    (if created then ResetForm(s) else s).(isCreating := false)
  }

  /** The Create button's `disabled` rule. */
  predicate CreateDisabled(s: ModalState) {
    |s.selectedUsers| == 0 || s.isCreating || (s.isGroup && s.chatName == "")
  }

  /** An enabled Create button always yields a request, and a group request
      for several users never carries an empty name. */
  lemma EnabledCreateYieldsNamedRequest(s: ModalState)
    requires !CreateDisabled(s)
    ensures BuildCreateRequest(s).Some?
    ensures s.isGroup && |s.selectedUsers| > 1 ==> BuildCreateRequest(s).value.name != ""
    ensures !s.isCreating && StartCreate(s).1.isCreating && CreateDisabled(StartCreate(s).1)
  {
  }
}

=== FILE: read_tracker.dfy ===
/** `markMessagesAsRead`: one bulk update of the messages table that sets
    status "read" on the other participants' messages of a chat. */
module ReadTracker {
  import opened Common
  import opened Schema

  /** The update's filter: the chat's messages written by someone other than
      the reader that are not read yet. */
  predicate Marks(m: MessageRow, chatId: Id, readerId: Id) {
    m.chatId == chatId && m.userId != readerId && m.status != StatusRead
  }

  function MarkAll(ms: seq<MessageRow>, chatId: Id, readerId: Id): (r: seq<MessageRow>)
    ensures |r| == |ms|
    ensures forall i :: 0 <= i < |ms| ==>
              r[i] == (if Marks(ms[i], chatId, readerId) then ms[i].(status := StatusRead) else ms[i])
  {
    seq(|ms|, i requires 0 <= i < |ms| =>
      if Marks(ms[i], chatId, readerId) then ms[i].(status := StatusRead) else ms[i])
  }

  /** `markMessagesAsRead(chatId)` against the messages table. Without a
      signed-in user nothing is written; a rejected update leaves the table
      as it was. Only the status column of the filtered rows changes. */
  function MarkMessagesAsRead(auth: Option<Id>, chatId: Id, ms: seq<MessageRow>, writeOk: bool)
    : (r: seq<MessageRow>)
    ensures |r| == |ms|
    ensures auth.None? || !writeOk ==> r == ms
    ensures auth.Some? && writeOk ==> forall i :: 0 <= i < |ms| ==>
              && r[i] == ms[i].(status := r[i].status)
              && (r[i] != ms[i] <==> Marks(ms[i], chatId, auth.value))
              && (r[i].chatId == chatId && r[i].userId != auth.value ==> r[i].status == "read")
  {
    if auth.None? || !writeOk then ms else MarkAll(ms, chatId, auth.value)
  }

  /** Marking twice leaves the table as marking once. */
  lemma MarkIdempotent(auth: Option<Id>, chatId: Id, ms: seq<MessageRow>, writeOk1: bool, writeOk2: bool)
    ensures MarkMessagesAsRead(auth, chatId, MarkMessagesAsRead(auth, chatId, ms, writeOk1), writeOk2)
         == MarkMessagesAsRead(auth, chatId, ms, writeOk1 || writeOk2)
  {
  }

  /** After the reader marks a chat, nothing in it is unread for them. */
  lemma {:induction false} MarkClearsUnread(chatId: Id, readerId: Id, ms: seq<MessageRow>)
    ensures UnreadCount(MarkMessagesAsRead(Some(readerId), chatId, ms, true), chatId, readerId) == 0
    decreases |ms|
  {
    var r := MarkMessagesAsRead(Some(readerId), chatId, ms, true);
    if |ms| > 0 {
      var front := ms[..|ms| - 1];
      MarkClearsUnread(chatId, readerId, front);
      assert r[..|r| - 1] == MarkMessagesAsRead(Some(readerId), chatId, front, true);
    }
  }

  /** Marking one chat leaves every other chat's unread count, for every
      user, as it was. */
  lemma {:induction false} MarkKeepsOtherChats(chatId: Id, readerId: Id, ms: seq<MessageRow>,
                                               otherChat: Id, userId: Id)
    requires otherChat != chatId
    ensures UnreadCount(MarkMessagesAsRead(Some(readerId), chatId, ms, true), otherChat, userId)
         == UnreadCount(ms, otherChat, userId)
    decreases |ms|
  {
    var r := MarkMessagesAsRead(Some(readerId), chatId, ms, true);
    if |ms| > 0 {
      var front := ms[..|ms| - 1];
      MarkKeepsOtherChats(chatId, readerId, front, otherChat, userId);
      assert r[..|r| - 1] == MarkMessagesAsRead(Some(readerId), chatId, front, true);
    }
  }

  /** The reader's own messages keep their status, so what the other
      participants still have unread from the reader is untouched. */
  lemma {:induction false} MarkKeepsReadersOwnMessages(chatId: Id, readerId: Id, ms: seq<MessageRow>)
    ensures forall i :: 0 <= i < |ms| && ms[i].userId == readerId ==>
              MarkMessagesAsRead(Some(readerId), chatId, ms, true)[i] == ms[i]
  {
  }
}

=== FILE: realtime.dfy ===
/** The two realtime payload filters of the chat service
    (`subscribeToNewMessages`, `subscribeToMessageStatus`). The channel they
    are registered on listens to every change of every table in the public
    schema, so a payload's row is an untyped record from any table. */
module Realtime {
  import opened Common
  import opened Schema

  /** A column value as the client's strict comparison `===` sees it; a
      column the record does not carry reads as undefined. */
  datatype Value = Undefined | Null | Str(s: string) | Bool(b: bool) | Num(n: int)

  type Record = map<string, Value>

  function Get(r: Record, column: string): (v: Value)
    ensures column !in r ==> v.Undefined?
    ensures column in r ==> v == r[column]
  {
    if column in r then r[column] else Undefined
  }

  datatype EventType = Insert | Update | Delete

  /** A change-feed payload: the event, the table the row belongs to, the
      new row (absent when the feed sends none) and the old row image (empty
      for inserts; by default it carries only the primary key). */
  datatype Payload = Payload(eventType: EventType, table: string, newRow: Option<Record>, oldRow: Record)

  const MessagesTable := "messages"

  function OptStr(o: Option<string>): Value {
    if o.Some? then Str(o.value) else Null
  }

  /** A messages row as the feed publishes it. */
  function MessageRecord(m: MessageRow): (r: Record)
    ensures Get(r, "id") == Str(m.id) && Get(r, "chat_id") == Str(m.chatId)
    ensures Get(r, "user_id") == Str(m.userId) && Get(r, "status") == Str(m.status)
  {
    map[
      "id" := Str(m.id), "chat_id" := Str(m.chatId), "user_id" := Str(m.userId),
      "text" := Str(m.text), "created_at" := Num(m.createdAt), "status" := Str(m.status),
      "forwarded_from" := OptStr(m.forwardedFrom), "attachment_url" := OptStr(m.attachmentUrl),
      "attachment_type" := OptStr(m.attachmentType)]
  }

  /** A chat_tags row as the feed publishes it. */
  function TagRecord(t: TagRow): (r: Record)
    ensures Get(r, "chat_id") == Str(t.chatId)
  {
    map["id" := Str(t.id), "chat_id" := Str(t.chatId), "type" := Str(t.tagType),
        "label" := Str(t.tagLabel), "created_at" := Num(t.createdAt)]
  }

  /** The new-message filter as written: an INSERT whose new row carries the
      chat's id, whatever table it was inserted into. */
  function NewMessageFilterAsWritten(chatId: Id, p: Payload): (fires: bool)
    ensures fires ==> p.eventType == Insert && p.newRow.Some?
    ensures fires <==> p.eventType == Insert && p.newRow.Some?
                       && "chat_id" in p.newRow.value && p.newRow.value["chat_id"] == Str(chatId)
  {
    p.eventType == Insert && p.newRow.Some? && Get(p.newRow.value, "chat_id") == Str(chatId)
  }

  /** The new-message filter restricted to the messages table. */
  function NewMessageFilter(chatId: Id, p: Payload): (fires: bool)
    ensures fires ==> p.eventType == Insert && p.table == "messages"
    ensures fires <==> NewMessageFilterAsWritten(chatId, p) && p.table == "messages"
  {
    p.table == MessagesTable && NewMessageFilterAsWritten(chatId, p)
  }

  /** The status filter: an UPDATE of a row of the chat whose status differs
      between the old and the new image. The callback receives the new row's
      id and status. */
  function StatusFilter(chatId: Id, p: Payload): (r: Option<(Value, Value)>)
    ensures r.Some? ==> p.eventType == Update && p.newRow.Some?
    ensures r.Some? <==> p.eventType == Update && p.newRow.Some?
                         && Get(p.newRow.value, "chat_id") == Str(chatId)
                         && Get(p.oldRow, "status") != Get(p.newRow.value, "status")
    ensures r.Some? ==> r.value == (Get(p.newRow.value, "id"), Get(p.newRow.value, "status"))
  {
    if p.eventType == Update && p.newRow.Some?
       && Get(p.newRow.value, "chat_id") == Str(chatId)
       && Get(p.oldRow, "status") != Get(p.newRow.value, "status")
    then Some((Get(p.newRow.value, "id"), Get(p.newRow.value, "status")))
    else None
  }

  /** A message insert reaches the new-message callback exactly when the
      message belongs to the subscribed chat. */
  lemma NewMessageFiresForItsChat(chatId: Id, m: MessageRow, oldRow: Record)
    ensures NewMessageFilter(chatId, Payload(Insert, "messages", Some(MessageRecord(m)), oldRow))
            <==> m.chatId == chatId
  {
  }

  /** With full old row images, the status callback fires exactly for an
      update of a message of the chat that changes its status, and receives
      the message id and the new status. */
  lemma StatusFiresOnStatusChange(chatId: Id, before: MessageRow, after: MessageRow)
    ensures var p := Payload(Update, "messages", Some(MessageRecord(after)), MessageRecord(before));
            && (StatusFilter(chatId, p).Some? <==> after.chatId == chatId && before.status != after.status)
            && (StatusFilter(chatId, p).Some? ==> StatusFilter(chatId, p).value == (Str(after.id), Str(after.status)))
  {
  }

  /** With the default old row image (primary key only), the old status reads
      as undefined, so every update of a message of the chat fires the status
      callback, whether or not its status changed. */
  lemma StatusFiresOnAnyUpdateWithKeyOnlyImage(chatId: Id, after: MessageRow)
    ensures var p := Payload(Update, "messages", Some(MessageRecord(after)), map["id" := Str(after.id)]);
            StatusFilter(chatId, p).Some? <==> after.chatId == chatId
  {
  }

  /** Inserts never reach the status callback, and updates or deletes never
      reach the new-message callback. */
  lemma FiltersSeparateEvents(chatId: Id, p: Payload)
    ensures p.eventType != Update ==> StatusFilter(chatId, p).None?
    ensures p.eventType != Insert ==> !NewMessageFilterAsWritten(chatId, p) && !NewMessageFilter(chatId, p)
  {
  }

  /** The filter as written hands a tag insert of the open chat to the
      new-message callback; the restricted filter does not. */
  lemma TagInsertReachesNewMessageCallback(t: TagRow)
    ensures var p := Payload(Insert, "chat_tags", Some(TagRecord(t)), map[]);
            NewMessageFilterAsWritten(t.chatId, p) && !NewMessageFilter(t.chatId, p)
  {
  }
}

=== FILE: schema.dfy ===
/** The hosted database the chat service talks to, as an in-memory store:
    one sequence of rows per table (users, chats, chat_participants,
    messages, chat_tags). Columns the client logic never reads or writes
    (updated_at, the participant row id) are not represented. Timestamps are
    instants (`int`), which is how the database compares them. */
module Schema {
  import opened Common

  type Id = string
  type Timestamp = int

  /** The message statuses the client writes or compares against. */
  const StatusSent := "sent"
  const StatusRead := "read"

  const RoleAdmin := "admin"
  const RoleMember := "member"

  datatype UserRow = UserRow(
    id: Id, fullName: string, email: string,
    avatarUrl: Option<string>, phone: Option<string>)

  datatype ChatRow = ChatRow(
    id: Id, name: string, avatarUrl: Option<string>,
    isGroup: bool, createdBy: Id, createdAt: Timestamp)

  datatype ParticipantRow = ParticipantRow(chatId: Id, userId: Id, role: string)

  datatype MessageRow = MessageRow(
    id: Id, chatId: Id, userId: Id, text: string, createdAt: Timestamp,
    status: string, forwardedFrom: Option<string>,
    attachmentUrl: Option<string>, attachmentType: Option<string>)

  datatype TagRow = TagRow(id: Id, chatId: Id, tagType: string, tagLabel: string, createdAt: Timestamp)

  /** A tag as the client handles it before it is stored: `{ type, label }`. */
  datatype Tag = Tag(tagType: string, tagLabel: string)

  datatype Db = Db(
    users: seq<UserRow>,
    chats: seq<ChatRow>,
    participants: seq<ParticipantRow>,
    messages: seq<MessageRow>,
    tags: seq<TagRow>)

  /** The unread rule of the chat list query: a message of `chatId` that
      still has status "sent" and was written by someone other than `userId`. */
  predicate CountsAsUnread(m: MessageRow, chatId: Id, userId: Id) {
    m.chatId == chatId && m.status == StatusSent && m.userId != userId
  }

  /** The `count: "exact"` query: how many rows of `ms` count as unread. */
  function UnreadCount(ms: seq<MessageRow>, chatId: Id, userId: Id): (n: nat)
    ensures n <= |ms|
    ensures n == 0 <==> forall i :: 0 <= i < |ms| ==> !CountsAsUnread(ms[i], chatId, userId)
    decreases |ms|
  {
    if |ms| == 0 then 0
    else UnreadCount(ms[..|ms| - 1], chatId, userId)
         + (if CountsAsUnread(ms[|ms| - 1], chatId, userId) then 1 else 0)
  }

  /** The positions of the unread rows: an independent description of the count. */
  ghost function UnreadPositions(ms: seq<MessageRow>, chatId: Id, userId: Id): set<nat> {
    set i: nat | i < |ms| && CountsAsUnread(ms[i], chatId, userId)
  }

  /** The unread count is exactly the number of rows the unread rule selects. */
  lemma {:induction false} UnreadCountIsCardinality(ms: seq<MessageRow>, chatId: Id, userId: Id)
    ensures UnreadCount(ms, chatId, userId) == |UnreadPositions(ms, chatId, userId)|
    decreases |ms|
  {
    if |ms| > 0 {
      var front := ms[..|ms| - 1];
      var last := |ms| - 1;
      UnreadCountIsCardinality(front, chatId, userId);
      UnreadPositionsStep(ms, chatId, userId);
      var before := UnreadPositions(front, chatId, userId);
      assert last !in before;
      if CountsAsUnread(ms[last], chatId, userId) {
        assert |before + {last}| == |before| + 1;
      }
    } else {
      assert UnreadPositions(ms, chatId, userId) == {};
    }
  }

  /** Appending a row adds its position exactly when it counts as unread. */
  lemma UnreadPositionsStep(ms: seq<MessageRow>, chatId: Id, userId: Id)
    requires |ms| > 0
    ensures UnreadPositions(ms, chatId, userId)
            == UnreadPositions(ms[..|ms| - 1], chatId, userId)
               + (if CountsAsUnread(ms[|ms| - 1], chatId, userId) then {|ms| - 1} else {})
  {
    var front := ms[..|ms| - 1];
    var after := UnreadPositions(ms, chatId, userId);
    var before := UnreadPositions(front, chatId, userId);
    var extra: set<nat> := if CountsAsUnread(ms[|ms| - 1], chatId, userId) then {|ms| - 1} else {};
    forall i: nat ensures i in after <==> i in before + extra {
      if i < |front| {
        assert front[i] == ms[i];
      }
    }
  }

  /** A user's own messages never count towards their unread total. */
  lemma {:induction false} OwnMessagesNeverUnread(ms: seq<MessageRow>, chatId: Id, userId: Id)
    requires forall i :: 0 <= i < |ms| ==> ms[i].chatId == chatId ==> ms[i].userId == userId
    ensures UnreadCount(ms, chatId, userId) == 0
    decreases |ms|
  {
    if |ms| > 0 {
      OwnMessagesNeverUnread(ms[..|ms| - 1], chatId, userId);
    }
  }

  /** Appending one row adds one to the count exactly when that row is unread. */
  lemma UnreadCountAppend(ms: seq<MessageRow>, m: MessageRow, chatId: Id, userId: Id)
    ensures UnreadCount(ms + [m], chatId, userId)
         == UnreadCount(ms, chatId, userId) + (if CountsAsUnread(m, chatId, userId) then 1 else 0)
  {
    assert (ms + [m])[..|ms|] == ms;
  }

  /** The first user row with the given id (`.eq("id", …).single()`). */
  function FindUser(users: seq<UserRow>, id: Id): (r: Option<UserRow>)
    ensures r.None? <==> forall u :: u in users ==> u.id != id
    ensures r.Some? ==> r.value in users && r.value.id == id
    ensures r.Some? ==> exists k :: 0 <= k < |users| && users[k] == r.value
                                    && forall j :: 0 <= j < k ==> users[j].id != id
    decreases |users|
  {
    if |users| == 0 then None
    else if users[0].id == id then Some(users[0])
    else
      var r := FindUser(users[1..], id);
      if r.Some? then
        ghost var k :| 0 <= k < |users[1..]| && users[1..][k] == r.value
                       && forall j :: 0 <= j < k ==> users[1..][j].id != id;
        assert users[k + 1] == r.value;
        r
      else r
  }

  /** The first chat row with the given id. */
  function FindChat(chats: seq<ChatRow>, id: Id): (r: Option<ChatRow>)
    ensures r.None? <==> forall c :: c in chats ==> c.id != id
    ensures r.Some? ==> r.value in chats && r.value.id == id
    decreases |chats|
  {
    if |chats| == 0 then None
    else if chats[0].id == id then Some(chats[0])
    else FindChat(chats[1..], id)
  }
}

=== FILE: signup.dfy ===
/** The sign-up form's submit handler: an ordered chain of input checks in
    which the first failing check alone is reported, and the sign-up call
    made only when every check passes. Lengths are JavaScript string lengths
    (UTF-16 code units); whitespace is JavaScript's `trim` set. */
module Signup {
  import opened Common

  datatype Form = Form(email: string, phone: string, password: string, fullName: string,
                       confirmPassword: string)

  const PasswordsDiffer := "Passwords don't match"
  const PasswordTooShort := "Password must be at least 6 characters"
  const NameMissing := "Please enter your full name"
  const PhoneInvalid := "Please enter a valid 10-digit phone number"
  const SomethingWentWrong := "Something went wrong"
  const MinPasswordLength := 6
  const PhoneDigits := 10

  /** Characters outside the Basic Multilingual Plane take two UTF-16 code
      units. */
  function CodeUnits(c: char): nat {
    if c as int >= 0x1_0000 then 2 else 1
  }

  /** JavaScript's `length`: the number of UTF-16 code units. */
  function Utf16Length(s: string): (n: nat)
    ensures |s| <= n <= 2 * |s|
    ensures (forall i :: 0 <= i < |s| ==> s[i] as int < 0x1_0000) ==> n == |s|
    decreases |s|
  {
    if |s| == 0 then 0 else CodeUnits(s[0]) + Utf16Length(s[1..])
  }

  /** The code-unit length adds up over concatenation. With the value on a
      single character, `CodeUnits`, this fixes the length of every string. */
  lemma {:induction false} Utf16LengthAppend(a: string, b: string)
    ensures Utf16Length(a + b) == Utf16Length(a) + Utf16Length(b)
    decreases |a|
  {
    if |a| == 0 {
      assert a + b == b;
    } else {
      assert (a + b)[0] == a[0] && (a + b)[1..] == a[1..] + b;
      Utf16LengthAppend(a[1..], b);
    }
  }

  /** One character counts as its code units: two outside the Basic
      Multilingual Plane, one inside it. */
  lemma Utf16LengthOfChar(c: char)
    ensures Utf16Length([c]) == CodeUnits(c)
    ensures Utf16Length([c]) == if c as int >= 0x1_0000 then 2 else 1
  {
  }

  /** Three emoji are six code units, long enough for the password rule. */
  lemma ThreeEmojiAreSixCodeUnits()
    ensures Utf16Length("\U{1F600}\U{1F600}\U{1F600}") == MinPasswordLength
  {
  }

  /** The white space and line terminators that `String.prototype.trim`
      removes. */
  predicate IsJsWhitespace(c: char) {
    var u := c as int;
    (0x09 <= u <= 0x0D) || u == 0x20 || u == 0xA0 || u == 0x1680
    || (0x2000 <= u <= 0x200A)
    || u == 0x2028 || u == 0x2029 || u == 0x202F || u == 0x205F
    || u == 0x3000 || u == 0xFEFF
  }

  predicate AllWhitespace(s: string) {
    forall i :: 0 <= i < |s| ==> IsJsWhitespace(s[i])
  }

  function TrimStart(s: string): (r: string)
    ensures |r| <= |s| && r == s[|s| - |r|..]
    ensures AllWhitespace(s[..|s| - |r|])
    ensures |r| > 0 ==> !IsJsWhitespace(r[0])
    decreases |s|
  {
    if |s| > 0 && IsJsWhitespace(s[0]) then TrimStart(s[1..]) else s
  }

  function TrimEnd(s: string): (r: string)
    ensures |r| <= |s| && r == s[..|r|]
    ensures AllWhitespace(s[|r|..])
    ensures |r| > 0 ==> !IsJsWhitespace(r[|r| - 1])
    decreases |s|
  {
    if |s| > 0 && IsJsWhitespace(s[|s| - 1]) then TrimEnd(s[..|s| - 1]) else s
  }

  /** `r` is the stretch of `s` starting at `k`, with only white space
      before and after it. */
  predicate BetweenWhitespace(s: string, r: string, k: int) {
    0 <= k && k + |r| <= |s| && r == s[k..k + |r|]
    && AllWhitespace(s[..k]) && AllWhitespace(s[k + |r|..])
  }

  /** `trim`: the input without its leading and trailing white space. */
  function Trim(s: string): (r: string)
    ensures exists k :: BetweenWhitespace(s, r, k)
    ensures |r| > 0 ==> !IsJsWhitespace(r[0]) && !IsJsWhitespace(r[|r| - 1])
  {
    var t := TrimStart(s);
    var r := TrimEnd(t);
    SliceOfSuffix(s, |s| - |t|, t, r);
    r
  }

  /** A prefix `r` of the suffix `t == s[k..]`, with white space before `t`
      and after `r`, lies between white space in `s`. */
  lemma SliceOfSuffix(s: string, k: nat, t: string, r: string)
    requires k <= |s| && t == s[k..] && AllWhitespace(s[..k])
    requires |r| <= |t| && r == t[..|r|] && AllWhitespace(t[|r|..])
    ensures BetweenWhitespace(s, r, k)
  {
    assert s[k + |r|..] == t[|r|..];
  }

  /** A string trims to nothing exactly when it is all white space. */
  lemma TrimEmptyIffAllWhitespace(s: string)
    ensures Trim(s) == "" <==> AllWhitespace(s)
  {
    var t := TrimStart(s);
    if t == "" {
      assert s[..|s|] == s;
    } else {
      assert !IsJsWhitespace(s[|s| - |t|]);
    }
  }

  predicate IsAsciiDigit(c: char) {
    '0' <= c <= '9'
  }

  /** The phone pattern `^\d{10}$` without flags: exactly ten ASCII digits
      and nothing else. */
  predicate IsTenDigitPhone(phone: string) {
    |phone| == PhoneDigits && forall i :: 0 <= i < |phone| ==> IsAsciiDigit(phone[i])
  }

  datatype Submit = Rejected(message: string) | CallSignUp(email: string, password: string, fullName: string, phone: string)

  /** `handleSubmit` up to the sign-up call. */
  function HandleSubmit(f: Form): (r: Submit)
    ensures r.Rejected? ==> r.message in {PasswordsDiffer, PasswordTooShort, NameMissing, PhoneInvalid}
    ensures f.password != f.confirmPassword ==> r == Rejected(PasswordsDiffer)
    ensures f.password == f.confirmPassword && Utf16Length(f.password) < MinPasswordLength
            ==> r == Rejected(PasswordTooShort)
    ensures (f.password == f.confirmPassword && Utf16Length(f.password) >= MinPasswordLength
             && AllWhitespace(f.fullName)) ==> r == Rejected(NameMissing)
    ensures (f.password == f.confirmPassword && Utf16Length(f.password) >= MinPasswordLength
             && !AllWhitespace(f.fullName) && !IsTenDigitPhone(f.phone)) ==> r == Rejected(PhoneInvalid)
    ensures r.CallSignUp? <==> f.password == f.confirmPassword && Utf16Length(f.password) >= MinPasswordLength
                               && !AllWhitespace(f.fullName) && IsTenDigitPhone(f.phone)
    ensures r.CallSignUp? ==> r == CallSignUp(f.email, f.password, f.fullName, f.phone)
  {
    TrimEmptyIffAllWhitespace(f.fullName);
    if f.password != f.confirmPassword then Rejected(PasswordsDiffer)
    else if Utf16Length(f.password) < MinPasswordLength then Rejected(PasswordTooShort)
    else if Trim(f.fullName) == "" then Rejected(NameMissing)
    else if !IsTenDigitPhone(f.phone) then Rejected(PhoneInvalid)
    else CallSignUp(f.email, f.password, f.fullName, f.phone)
  }

  /** The checks run in order: once a check fails, the fields that later
      checks look at cannot change the reported error. */
  lemma FirstFailureWins(f: Form, g: Form)
    ensures f.password == g.password && f.confirmPassword == g.confirmPassword
            && HandleSubmit(f).Rejected? && HandleSubmit(f).message in {PasswordsDiffer, PasswordTooShort}
            ==> HandleSubmit(g) == HandleSubmit(f)
    ensures f.password == g.password && f.confirmPassword == g.confirmPassword && f.fullName == g.fullName
            && HandleSubmit(f) == Rejected(NameMissing)
            ==> HandleSubmit(g) == HandleSubmit(f)
  {
  }

  /** What the sign-up call gave back: an error value (an object that may or
      may not carry a message, or something else), nothing, or a thrown
      exception whose message may be missing or empty. */
  datatype ErrorValue = ErrorObject(message: Option<string>) | OtherError
  datatype Answer = Returned(error: Option<ErrorValue>) | Threw(message: Option<string>)

  datatype Outcome = ShowError(message: string) | Registered

  /** The rest of `handleSubmit`: an error object with a message is shown;
      any other answer counts as success; an exception shows its message or
      a generic one. */
  function FinishSignUp(a: Answer): (o: Outcome)
    ensures a.Returned? ==> (o.ShowError? <==> a.error.Some? && a.error.value.ErrorObject?
                                               && a.error.value.message.Some?)
    ensures a.Returned? && o.ShowError? ==> o.message == a.error.value.message.value
    ensures a.Threw? ==> o.ShowError? && o.message != ""
    ensures a.Threw? && a.message.Some? && a.message.value != "" ==> o == ShowError(a.message.value)
    ensures a.Threw? && (a.message.None? || a.message.value == "") ==> o == ShowError(SomethingWentWrong)
  {
    match a
    case Returned(err) =>
      if err.Some? && err.value.ErrorObject? && err.value.message.Some?
      then ShowError(err.value.message.value) else Registered
    case Threw(msg) => ShowError(OrElse(msg.GetOr(""), SomethingWentWrong))
  }
}
